=== FILE: README.md ===
# Resume builder: rendering and generation core

A Dafny model of the part of the resume builder that turns a saved resume
into what the user sees, and of the endpoint that writes the AI content:

- `components/ResumePdf.tsx` — the downloadable PDF. It has a header (name, headline,
  contact line, link row), then the sections Summary, Skills, Experience, Projects and Education.
  - Summary shows the AI summary, or fixed text when there is none. It has no raw field.
  - Skills, Experience and Projects show the AI overlay when it has items. Otherwise they
    show the raw field, split, trimmed and filtered. When the resolved list is empty,
    they show a placeholder.
  - Education has no overlay. It shows the first six trimmed non-empty lines of the
    raw field. "Add education" appears only when the field is the empty string, so a
    blank but non-empty field shows nothing.
- `app/app/preview/page.tsx` — the preview page. It computes the download file name
  and an on-screen text preview, which resolves the same record differently:
  - skills are shown unsplit;
  - AI experience bullets are shown unfiltered and uncapped;
  - projects are parsed into paragraph blocks of a heading and bullets;
  - education is not capped.
- `app/api/generate/route.ts` — `POST /api/generate`. It validates the request and
  answers from a deterministic fake generator in fake mode. Otherwise it builds a
  prompt, asks a language model for JSON and recovers an object wrapped in chatter.
  It accepts the result only when `summary` is truthy.

The modules follow the program:

| module | what it holds |
|---|---|
| `Wrappers` | `Option` |
| `JsString` | The JavaScript string operations the core is built from: `trim`, `split`, `join`, `filter(Boolean)`, `slice`, `indexOf`, `lastIndexOf`, `replaceAll`, `includes` |
| `Resume` | The saved record and the link row, which both views share |
| `ResumePdf` | The PDF |
| `Preview` | The preview page |
| `GenerateRoute` | The route |

The model represents the JavaScript runtime as follows:
- Strings are sequences of characters.
- One white-space predicate serves both `trim` and the regular expression `\s`. It covers ECMAScript white space plus line terminators.
- A JavaScript `||` on a string is `Or`, and `xs?.length` is `HasItems`.
- The AI overlays are `Option` values.
- `JSON.parse` and the model call are function parameters.
- The two environment variables the route reads are a `Config` value.

Two behaviours of the code are worth stating up front:

- Recovery of a wrapped object. The second `JSON.parse` is not guarded. An
  exception from it escapes to the outer `catch`, and the response is a 500 with
  that exception's message and no raw text (`GenerateRoute.RecoveryErrorEscapes`).
  When the last `}` comes before the first `{`, the slice is empty, and its parse
  error takes that same path.
- Projects. The PDF lists project lines as plain bullets. Only the preview page
  parses them into blocks of a heading and bullets.

## Model

| member | source | states |
|---|---|---|
| JsString.Trim | components/ResumePdf.tsx:41 | the result has no white space at either end, is empty exactly when the input is all white space, and sits inside the input with only white space around it |
| JsString.TrimUnique | components/ResumePdf.tsx:41 | white space, then a trimmed string, then white space trims to exactly that string |
| JsString.Join | components/ResumePdf.tsx:97 | the empty list joins to "" and a single item joins to itself; `SplitJoinSeparated` proves that splitting undoes joining |
| JsString.Split | components/ResumePdf.tsx:40 | split yields at least one piece, and joining the pieces with the separator gives back the input |
| JsString.SplitJoinSeparated | app/app/preview/page.tsx:166 | splitting on any separator undoes joining with it, when every part but the last ends before the separator and the last does not contain it |
| JsString.SplitJoin | components/ResumePdf.tsx:40 | splitting on a character undoes joining with it when no part contains it |
| JsString.Compact | components/ResumePdf.tsx:42 | filter(Boolean) keeps exactly the non-empty strings and never grows the list |
| JsString.CompactAppend | components/ResumePdf.tsx:42 | filtering distributes over concatenation, so the order is kept |
| JsString.CompactKeepsNonEmpty | components/ResumePdf.tsx:164 | filtering a list with no empty string changes nothing |
| JsString.Take | components/ResumePdf.tsx:164 | slice(0, n) is a prefix of length min(n, length) |
| JsString.Tokens | components/ResumePdf.tsx:37-42 | every token is non-empty, trimmed and free of the separator |
| JsString.TokensOfJoin | components/ResumePdf.tsx:37-42 | tokenising parts joined by the separator gives the trimmed non-empty parts in order |
| JsString.Fields | app/app/preview/page.tsx:166-168 | split, trim and filter(Boolean) give only non-empty trimmed strings |
| JsString.FieldsOfJoin | app/app/preview/page.tsx:166-168 | splitting parts joined by a separator, trimming and filtering gives the trimmed non-empty parts in order, under the same condition on the parts |
| JsString.Lines | app/app/preview/page.tsx:171-173 | every line is non-empty, trimmed and holds no line break |
| JsString.LinesOfJoin | app/app/preview/page.tsx:171-173 | visible one-line strings joined with line breaks read back as exactly those strings |
| JsString.NoBlankLineInJoin | app/app/preview/page.tsx:166 | lines joined with single line breaks never contain the paragraph break "\n\n" |
| JsString.FieldsOfBlank | components/ResumePdf.tsx:126-129 | a blank text has no trimmed non-empty lines |
| JsString.CommaListRoundTrip | app/api/generate/route.ts:22-25 | a list written as "a, b, c" splits, trims and filters back into the same list |
| JsString.IndexOf | app/api/generate/route.ts:108 | -1 exactly when the character is absent; otherwise its first position |
| JsString.LastIndexOf | app/api/generate/route.ts:109 | -1 exactly when the character is absent; otherwise its last position |
| JsString.Slice | app/api/generate/route.ts:111 | slice(a, b) is s[a..b] when in range and empty when b <= a |
| JsString.ReplaceChar | app/app/preview/page.tsx:51 | replaceAll of one character: same length, every occurrence replaced, every other character kept |
| Resume.Or | components/ResumePdf.tsx:63 | `s \|\| fallback` is s when non-empty and the fallback otherwise |
| Resume.TextOr | components/ResumePdf.tsx:90 | the text is shown when non-empty; the placeholder is shown exactly when it is empty |
| Resume.LinkRow | components/ResumePdf.tsx:69-83 | at most three links: LinkedIn, GitHub, Portfolio in that order, each present exactly when its URL is non-empty, and each pointing at that URL |
| ResumePdf.Resolve | components/ResumePdf.tsx:37-56 | an overlay with items is used as is; otherwise the items are non-empty, trimmed pieces of the raw field that do not contain the separator |
| ResumePdf.ResolveFallback | components/ResumePdf.tsx:37-42 | without an overlay, a field written as separated entries resolves to those entries, trimmed and with blanks dropped, in order |
| ResumePdf.BulletList | components/ResumePdf.tsx:163-164 | at most eight rows, all non-empty, a prefix of the non-empty items, and all of them when fewer than eight |
| ResumePdf.BulletListShowsShortLists | components/ResumePdf.tsx:164 | up to eight non-empty items are shown in full |
| ResumePdf.ContactLine | components/ResumePdf.tsx:66 | just the email or just the phone when the other is empty; "email \| phone" when both are present |
| ResumePdf.PdfHeader | components/ResumePdf.tsx:62-84 | the name and headline are never empty: each is the field, or "Your Name" / "Headline" when the field is empty; the header also carries the contact line and the shared link row |
| ResumePdf.ListSection | components/ResumePdf.tsx:102-121 | the placeholder is shown exactly when the resolved list is empty; otherwise the capped bullet list is shown |
| ResumePdf.SkillsSection | components/ResumePdf.tsx:95-99 | "Add skills" exactly when the list is empty; otherwise the list joined with ", " |
| ResumePdf.EducationLines | components/ResumePdf.tsx:126-130 | at most six lines, a prefix of the trimmed non-empty lines, all of them when fewer than six |
| ResumePdf.EducationSection | components/ResumePdf.tsx:124-141 | capped lines, then "Add education" exactly when the field is the empty string; a blank but non-empty field shows neither |
| ResumePdf.SectionOf | components/ResumePdf.tsx:87-142 | a section of the requested kind; Summary shows the AI summary when it is non-empty and its placeholder otherwise; Skills shows the resolved list joined by ", "; Experience and Projects show the first eight non-empty resolved items as rows; each of those three shows its placeholder exactly when the resolved list is empty; Education shows the capped lines, with "Add education" exactly when the field is the empty string |
| ResumePdf.OverlaysShownInPdf | components/ResumePdf.tsx:37-56 | an AI skills, experience or projects overlay with items is what the PDF shows: the skills joined by ", ", and the first eight non-empty bullets |
| ResumePdf.Sections | components/ResumePdf.tsx:87-142 | one section of each kind, in the order Summary, Skills, Experience, Projects, Education |
| ResumePdf.Render | components/ResumePdf.tsx:58-145 | the document keeps the title, carries the header, and lists the sections in the fixed order |
| ResumePdf.RenderSections | components/ResumePdf.tsx:87-142 | the five sections, position by position |
| ResumePdf.PlaceholdersExactlyWhenEmpty | components/ResumePdf.tsx:87-141 | the summary placeholder exactly when there is no AI summary text; the skills, experience and projects placeholders exactly when the resolved list is empty; "Add education" exactly when the field is the empty string |
| ResumePdf.NoOverlayUsesRawFields | components/ResumePdf.tsx:37-56 | without overlays, the PDF shows the summary placeholder, the skill tokens joined with ", ", and the first eight experience and project lines |
| Preview.FileName | app/app/preview/page.tsx:51 | no spaces and ends in ".pdf"; "resume.pdf" for an empty title; otherwise the title character for character with spaces turned into "_" |
| Preview.FileNameKeepsPlainTitle | app/app/preview/page.tsx:51 | a non-empty title without spaces becomes title + ".pdf" |
| Preview.ContactText | app/app/preview/page.tsx:86-89 | the email and a space, then "\| phone" only when there is a phone |
| Preview.ContactLinesAgreeWhenBothPresent | app/app/preview/page.tsx:86-89 | with both email and phone, the preview's contact line equals the PDF's; otherwise the preview keeps the space (and the bar) that the PDF drops |
| Preview.Header | app/app/preview/page.tsx:84-121 | the name and headline are shown as typed, even when empty; the contact text and the link row shared with the PDF |
| Preview.HeaderAgainstPdf | app/app/preview/page.tsx:84-121 | same link row as the PDF and the same filled-in name and headline; an empty name or headline stays empty in the preview but gets fixed text in the PDF |
| Preview.SummaryAgainstPdf | app/app/preview/page.tsx:130 | both views show a non-empty AI summary as is; without one each shows its own placeholder, and the two placeholders differ |
| Preview.SkillsBlock | app/app/preview/page.tsx:138-140 | the AI skills joined with ", " when there are any, else the raw field as typed; "Add skills" exactly when the chosen text is empty |
| Preview.ExperienceBlock | app/app/preview/page.tsx:147-156 | every AI bullet when there are any; else the raw text as typed; the placeholder exactly when both are missing |
| Preview.LeadingDashes | app/app/preview/page.tsx:177 | the length of the leading run of "-" |
| Preview.StripMarker | app/app/preview/page.tsx:177 | a suffix of the line; a line not starting with "-" is kept; otherwise the dash run and at most one following white-space character are removed |
| Preview.Bullet | app/app/preview/page.tsx:177 | a bullet is trimmed; a line without a leading dash is just trimmed, and is non-empty when the line is not blank |
| Preview.BulletOfMarkedLine | app/app/preview/page.tsx:175-178 | a bullet written as a dash run, with or without one space, then trimmed text, is shown as that text |
| Preview.BulletKeepsLaterDashes | app/app/preview/page.tsx:177 | only the first dash run is a marker: "- - x" is shown as "- x" |
| Preview.Bullets | app/app/preview/page.tsx:175-178 | no more bullets than lines; every bullet is non-empty and trimmed; the bullets are the lines with their markers stripped and the empty results dropped, in order |
| Preview.ParseBlock | app/app/preview/page.tsx:170-178 | the heading is the block's first trimmed non-empty line, a one-line prefix of the block; the bullets are read from the block's remaining lines, fewer than the lines, each non-empty and trimmed |
| Preview.WrittenBlockLines | app/app/preview/page.tsx:170-173 | a heading followed by "- " bullet lines forms a visible block whose lines are exactly those lines |
| Preview.MarkedBulletsReadBack | app/app/preview/page.tsx:175-178 | "- " bullet lines read back as the bullet texts |
| Preview.ParseBlockOfWritten | app/app/preview/page.tsx:170-178 | a project written as a heading and "- " bullet lines parses back into that heading and those bullets |
| Preview.Paragraphs | app/app/preview/page.tsx:165-168 | the paragraphs are non-empty and trimmed; a blank field has none |
| Preview.ParagraphsOfJoin | app/app/preview/page.tsx:165-168 | trimmed non-empty paragraphs without a blank line, joined with "\n\n", read back as exactly those paragraphs |
| Preview.ParseProjects | app/app/preview/page.tsx:165-192 | one block per paragraph, the i-th block parsed from the i-th paragraph; each heading is a one-line prefix of its paragraph, and each bullet is non-empty and trimmed |
| Preview.WrittenBlockParses | app/app/preview/page.tsx:165-178 | a project written as a heading and "- " bullet lines is one trimmed paragraph without a blank line, and it parses back into that project |
| Preview.ProjectsOfWritten | app/app/preview/page.tsx:165-178 | projects written one after another with blank lines between them parse back into exactly those projects, in order |
| Preview.RenderProject | app/app/preview/page.tsx:180-190 | the heading first, then the bullet list if and only if there are bullets |
| Preview.WrittenProjectsShown | app/app/preview/page.tsx:165-190 | projects typed as headings and "- " bullet lines, with blank lines between them, are shown in order: each heading, then its bullets when it has any |
| Preview.ProjectsIgnoreOverlay | app/app/preview/page.tsx:165-168 | the AI project bullets never change the preview's projects |
| Preview.PreviewOf | app/app/preview/page.tsx:51-210 | the file name of the title, without spaces; the header with the name and headline as typed, the contact text and the shared link row; the summary placeholder exactly when there is no AI summary text; the skills and experience blocks; the projects parsed from the raw field, none when it is blank; education lines non-empty and trimmed, none when the field is blank |
| Preview.SkillsAgainstPdf | app/app/preview/page.tsx:138-140 | an AI skills list with visible text is shown the same by both views; without one the preview shows the raw field as typed and the PDF its comma tokens joined by ", "; a list of one empty skill gives the preview's placeholder and an empty line in the PDF |
| Preview.ExperienceCapAsymmetry | app/app/preview/page.tsx:147-156 | with AI experience bullets the preview shows all of them, empty ones included, and the PDF the first eight non-empty ones; ten visible bullets give 10 and 8 rows |
| Preview.EducationCapAsymmetry | app/app/preview/page.tsx:200-206 | the preview shows every education line and the PDF shows the first six; eight lines give 8 and 6 |
| GenerateRoute.FakeRole | app/api/generate/route.ts:21 | the trimmed headline, or "Student / Fresher" when it is blank; never empty |
| GenerateRoute.FakeSummary | app/api/generate/route.ts:29 | the summary sentence contains the role and the skills phrase |
| GenerateRoute.SkillsPhrase | app/api/generate/route.ts:29 | never empty; "core skills" when there are no skills; otherwise the first three joined with ", " |
| GenerateRoute.FakeSkills | app/api/generate/route.ts:22-42 | one to eight trimmed non-empty skills: a prefix of the comma tokens, all of them when fewer than eight, exactly eight when there are more; the five default skills when there are none |
| GenerateRoute.MakeFakeResult | app/api/generate/route.ts:20-44 | fixed experience and project bullets; the cleaned skills; a summary that names the role and either the first three skills or "core skills" |
| GenerateRoute.FakeBulletsIgnoreInput | app/api/generate/route.ts:30-39 | any two inputs get the same fake bullets |
| GenerateRoute.FakeSkillsTakeFirstEight | app/api/generate/route.ts:22-26 | with any skills typed, the fake skills are the first eight tokens |
| GenerateRoute.JoinFirstThree | app/api/generate/route.ts:29 | the first three names joined with ", " are "a, b, c" |
| GenerateRoute.FakeResultOfTokens | app/api/generate/route.ts:22-29 | with at least three tokens, the fake result keeps the first eight, and the summary contains the first three joined with ", " |
| GenerateRoute.FakeResultOfSkillList | app/api/generate/route.ts:22-29 | skills typed as "a, b, c, ...": the fake result keeps the first eight, and the summary contains "a, b, c" |
| GenerateRoute.FieldLinesHoldEach | app/api/generate/route.ts:87-93 | every "Label: value" line occurs in the user-data block |
| GenerateRoute.BuildPrompt | app/api/generate/route.ts:68-94 | the prompt starts with the fixed instructions and contains a "Label: value" line for each of the six input fields |
| GenerateRoute.SummaryOf | app/api/generate/route.ts:115 | `json?.summary`: nothing unless the value is an object, and for an object the `summary` property |
| GenerateRoute.Truthy | app/api/generate/route.ts:115 | `undefined` and `null` are falsy; arrays and objects are truthy; a string is truthy exactly when non-empty, a boolean when true, a number when non-zero |
| GenerateRoute.ErrorMessage | app/api/generate/route.ts:124-127 | the exception's message when it has one, else "Unknown error" |
| GenerateRoute.Lookup | app/api/generate/route.ts:115 | a property lookup finds nothing exactly when the key is absent; otherwise it returns the value of the last member with that key |
| GenerateRoute.Candidate | app/api/generate/route.ts:108-111 | a candidate exists exactly when the text has both braces; when non-empty it runs from "{" to "}" with no "{" before it and no "}" after it; it is empty exactly when every "}" precedes every "{" |
| GenerateRoute.Recover | app/api/generate/route.ts:104-113 | a text that parses is used as is; otherwise the candidate's parse result is used, or null when there is no candidate; an error is escaped only from the candidate's parse |
| GenerateRoute.Interpret | app/api/generate/route.ts:102-128 | 200 exactly for a success, which carries the recovered value and requires its summary to be truthy; a recovered value with a falsy summary gives 500 "AI response invalid" with the raw text; an error that escaped recovery gives 500 with its message |
| GenerateRoute.DirectParseDecides | app/api/generate/route.ts:104-122 | a text that parses as it is is answered with that value when its summary is truthy, and with "AI response invalid" and the raw text otherwise |
| GenerateRoute.ModelFailureIsError | app/api/generate/route.ts:96-128 | after validation in live mode, a model call that throws gives 500 with its message, and a reply without content is read as the empty text |
| GenerateRoute.Post | app/api/generate/route.ts:46-129 | status 200, 400 or 500; 400 exactly when the name is missing, with "fullName is required"; a fake result only in fake mode after validation; a live result only after the model was called and only with a truthy summary; an unreadable body gives a 500 with its message |
| GenerateRoute.NameCheckedFirst | app/api/generate/route.ts:51-53 | a missing input or an empty name gives a 400 whatever the mode, key, model and parser |
| GenerateRoute.FakeModeAnswersFromInput | app/api/generate/route.ts:56-58 | fake mode answers 200 with the fake result, with or without a key |
| GenerateRoute.MissingKeyAfterValidation | app/api/generate/route.ts:61-66 | live mode without a key answers 500 "Missing OPENAI_API_KEY" once validation has passed |
| GenerateRoute.ModelOnlyCalledWhenLive | app/api/generate/route.ts:46-66 | unless validation passed, fake mode is off and a key is set, the answer does not depend on the model or the parser |
| GenerateRoute.LiveAnswerComesFromText | app/api/generate/route.ts:96-102 | in live mode, the model sees the built prompt, and its text alone decides the answer |
| GenerateRoute.UnparsableWithoutBracesIsInvalid | app/api/generate/route.ts:104-119 | a text without "{" that does not parse gives 500 "AI response invalid" with the raw text |
| GenerateRoute.NotJsonAtAll | app/api/generate/route.ts:115-119 | "not json at all" gives 500 "AI response invalid" with that text |
| GenerateRoute.CandidateFindsWrappedObject | app/api/generate/route.ts:108-111 | for an object wrapped in text with no "{" before it and no "}" after it, the candidate is exactly that object |
| GenerateRoute.WrappedObjectIsRecovered | app/api/generate/route.ts:104-122 | an unparsable text wrapping an object that parses and has a truthy summary is answered with that object |
| GenerateRoute.RecoveryErrorEscapes | app/api/generate/route.ts:104-128 | an error from the recovery parse becomes a 500 with its message, not "AI response invalid" |

## Left out

- Loading the resume (Supabase authentication, the query, the loading and "no resume" states of `app/app/preview/page.tsx:14-49`): I/O, outside the rendering logic.
- Layout and styling: page size, fonts, gaps, the bullet glyph and the upper-case section titles that `textTransform` applies. These belong to the renderer.
- Section titles and link texts: a section or link is identified by its kind, and the kind's name is the text shown.
- The PDF download link and the "Preparing PDF..." label (`app/app/preview/page.tsx:68-74`): renderer state.
- The OpenAI client, the model name and the temperature (`app/api/generate/route.ts:7-9`, `96-100`): the model call is the `complete` parameter.
- What `JSON.parse` accepts: it is the `parse` parameter, and a parsed value is a small JSON datatype. No fact about the real parser is assumed. For example, the empty candidate is not known to throw: its path to the outer `catch` is stated for a parser that throws on it.
- Reading `USE_FAKE_AI` and `OPENAI_API_KEY`: these become the two booleans of `Config`.
- Response serialisation: `Response.json` and the `ok: true` field are not modelled. `ok: true` goes with `Success`.
- Input fields of the route that are absent or not strings: every field is a string here. In JavaScript an absent headline or skills field behaves like "" in the fake result (`?.trim()` then `||`, and `|| ""`), so the empty string stands for it. A `null` headline short-circuits `?.trim()` like an absent one, and a falsy skills value of any type (`null`, `false`, `0`) becomes "" through `|| ""`. Only a headline that is neither a string nor `null`/absent, or a truthy skills value that is not a string, makes `trim` or `split` throw. The prompt interpolates any such value in its JavaScript string form, such as "undefined" or "null".
- Fields of a saved resume that are absent or `null`: they are modelled as strings, and the overlays as `Option`.
- JavaScript strings are UTF-16 code units; characters here are Unicode scalar values, so surrogate pairs are not modelled.
- `split` with an empty separator is never used by the core and is not modelled.
- The `Placeholder` block is rendered as ordinary text, like `Prose`. The two are kept apart only to state when a placeholder appears.
- GenerateRoute.FakeSummary: states that the sentence contains the role and the skills phrase, not its full fixed wording, which is its body.
- GenerateRoute.BuildPrompt: states the fixed instructions as a prefix and that each "Label: value" line is present, not that the six lines are consecutive and in order.
- GenerateRoute.Post: the model-call failure and missing-key answers are stated by the lemmas (`ModelFailureIsError`, `MissingKeyAfterValidation`, `LiveAnswerComesFromText`), not in its own contract.
- Resume.LinkRow: the preview page repeats the same link row (`app/app/preview/page.tsx:90-121`); both views use this one definition.

=== FILE: generate_route.dfy ===
/**
  The `POST /api/generate` route: validate the request, answer from the
  deterministic fake generator when fake mode is on, otherwise ask the
  language model for a JSON object and accept it only when it has a truthy
  `summary`.  The model call and `JSON.parse` are parameters; the
  environment flags are a `Config` value.
*/
module GenerateRoute {
  import opened Wrappers
  import opened JsString
  import opened Resume

  /** The request's `input` object. */
  datatype ResumeInput = ResumeInput(
    fullName: string,
    headline: string,
    education: string,
    skills: string,
    experience: string,
    projects: string)

  /** The generated content the route answers with. */
  datatype GeneratedContent = GeneratedContent(
    summary: string,
    experienceBullets: seq<string>,
    projectBullets: seq<string>,
    skillsClean: seq<string>)

  // ------------------------------------------------------------ fake mode

  const FakeSkillsCap: nat := 8
  const SummarySkillsCount: nat := 3
  const DefaultRole := "Student / Fresher"
  const NoSkillsPhrase := "core skills"
  const DefaultSkills: seq<string> := ["React", "Next.js", "Tailwind", "Supabase", "Git"]
  const FakeExperienceBullets: seq<string> := [
    "Built responsive UI screens and reusable components with clean, readable code.",
    "Improved user experience by fixing UI bugs and polishing layouts for mobile and desktop.",
    "Worked on small-to-medium features end-to-end: UI, basic API integration, and testing."
  ]
  const FakeProjectBullets: seq<string> := [
    "Created a resume builder app with form-based inputs, save/load functionality, and template preview.",
    "Built modern landing pages with strong UI hierarchy and performance-friendly components.",
    "Implemented authentication and secure data storage using Supabase policies (RLS)."
  ]

  /** The role the fake summary names: the trimmed headline, or "Student / Fresher". */
  function FakeRole(headline: string): (r: string)
    ensures r != [] && IsTrimmed(r)
    ensures !AllWs(headline) ==> r == Trim(headline)
    ensures AllWs(headline) ==> r == DefaultRole
  {
    Or(Trim(headline), DefaultRole)
  }

  const SummaryOpening := "Motivated "
  const SummaryMiddle := " with a strong foundation in "
  const SummaryClosing := ". Looking for opportunities to contribute to real projects and grow fast in a team environment."

  /** The fake summary sentence around a role and a skills phrase. */
  function FakeSummary(role: string, skillsPhrase: string): (r: string)
    ensures Contains(r, role) && Contains(r, skillsPhrase)
  {
    ContainsPieces(SummaryOpening, role, SummaryMiddle, skillsPhrase, SummaryClosing);
    SummaryOpening + role + SummaryMiddle + skillsPhrase + SummaryClosing
  }

  /** The skills phrase of the fake summary: the first three skills joined
      by ", ", or "core skills" when there are none. */
  function SkillsPhrase(skills: seq<string>): (r: string)
    ensures r != []
    ensures skills == [] ==> r == NoSkillsPhrase
    ensures |skills| >= 1 && skills[0] != [] ==> r == Join(Take(skills, SummarySkillsCount), ", ")
  {
    JoinStartsWithHead(Take(skills, SummarySkillsCount), ", ");
    Or(Join(Take(skills, SummarySkillsCount), ", "), NoSkillsPhrase)
  }

  /** The fake cleaned skills: the first eight comma-separated skills,
      trimmed and non-empty, or a fixed default list when there are none. */
  function FakeSkills(skills: string): (r: seq<string>)
    ensures 1 <= |r| <= FakeSkillsCap
    ensures forall i :: 0 <= i < |r| ==> r[i] != [] && IsTrimmed(r[i])
    ensures Tokens(skills, ',') == [] ==> r == DefaultSkills
    ensures Tokens(skills, ',') != [] ==> r <= Tokens(skills, ',')
    ensures |r| < FakeSkillsCap && Tokens(skills, ',') != [] ==> r == Tokens(skills, ',')
    ensures |Tokens(skills, ',')| >= FakeSkillsCap ==> |r| == FakeSkillsCap
  {
    var taken := Take(Tokens(skills, ','), FakeSkillsCap);
    if |taken| > 0 then taken
    else
      assert IsTrimmed(DefaultSkills[0]) && IsTrimmed(DefaultSkills[1]) && IsTrimmed(DefaultSkills[2])
          && IsTrimmed(DefaultSkills[3]) && IsTrimmed(DefaultSkills[4]);
      DefaultSkills
  }

  /** The deterministic stand-in for the language model: fixed bullets, the
      cleaned skills, and a summary naming the role and the first skills. */
  function MakeFakeResult(input: ResumeInput): (r: GeneratedContent)
    ensures r.skillsClean == FakeSkills(input.skills)
    ensures r.experienceBullets == FakeExperienceBullets
    ensures r.projectBullets == FakeProjectBullets
    ensures Contains(r.summary, FakeRole(input.headline))
    ensures Tokens(input.skills, ',') == [] ==> Contains(r.summary, NoSkillsPhrase)
    ensures Tokens(input.skills, ',') != [] ==>
              Contains(r.summary, Join(Take(Tokens(input.skills, ','), SummarySkillsCount), ", "))
  {
    var tokens := Tokens(input.skills, ',');
    var taken := Take(tokens, FakeSkillsCap);
    assert Take(taken, SummarySkillsCount) == Take(tokens, SummarySkillsCount);
    GeneratedContent(
      FakeSummary(FakeRole(input.headline), SkillsPhrase(taken)),
      FakeExperienceBullets,
      FakeProjectBullets,
      FakeSkills(input.skills))
  }

  /** The fake bullets are the same whatever the input. */
  lemma FakeBulletsIgnoreInput(a: ResumeInput, b: ResumeInput)
    ensures MakeFakeResult(a).experienceBullets == MakeFakeResult(b).experienceBullets
    ensures MakeFakeResult(a).projectBullets == MakeFakeResult(b).projectBullets
  {
  }

  /** With any skills typed, the fake skills are the first eight of them. */
  lemma FakeSkillsTakeFirstEight(skills: string)
    requires Tokens(skills, ',') != []
    ensures FakeSkills(skills) == Take(Tokens(skills, ','), FakeSkillsCap)
  {
    var r := FakeSkills(skills);
    var t := Take(Tokens(skills, ','), FakeSkillsCap);
    assert |r| == |t|;
    assert forall i :: 0 <= i < |r| ==> r[i] == Tokens(skills, ',')[i] == t[i];
  }

  lemma JoinFirstThree(names: seq<string>)
    requires |names| >= 3
    ensures Join(Take(names, SummarySkillsCount), ", ") == names[0] + ", " + names[1] + ", " + names[2]
  {
    var first := Take(names, SummarySkillsCount);
    assert first == [names[0], names[1], names[2]];
    calc {
      Join(first, ", ");
      names[0] + ", " + Join([names[1], names[2]], ", ");
      { assert [names[1], names[2]][1..] == [names[2]]; }
      names[0] + ", " + (names[1] + ", " + names[2]);
      names[0] + ", " + names[1] + ", " + names[2];
    }
  }

  /** With at least three skills, the fake result keeps the first eight
      and its summary names the first three, separated by ", ". */
  lemma FakeResultOfTokens(input: ResumeInput, names: seq<string>)
    requires Tokens(input.skills, ',') == names && |names| >= 3
    ensures MakeFakeResult(input).skillsClean == Take(names, FakeSkillsCap)
    ensures Contains(MakeFakeResult(input).summary, names[0] + ", " + names[1] + ", " + names[2])
  {
    FakeSkillsTakeFirstEight(input.skills);
    JoinFirstThree(names);
  }

  /** Skills typed as "a, b, c, ...": the fake result keeps the first eight
      and its summary names the first three, "a, b, c". */
  lemma FakeResultOfSkillList(input: ResumeInput, names: seq<string>)
    requires |names| >= 3 && CommaItems(names)
    requires input.skills == Join(names, ", ")
    ensures MakeFakeResult(input).skillsClean == Take(names, FakeSkillsCap)
    ensures Contains(MakeFakeResult(input).summary, names[0] + ", " + names[1] + ", " + names[2])
  {
    CommaListRoundTrip(names);
    FakeResultOfTokens(input, names);
  }

  // --------------------------------------------------------------- prompt

  /** The fixed instructions the prompt starts with. */
  const PromptPreamble :=
    "\nYou are an expert resume writer for students and early-career creators.\n"
    + "Write ATS-friendly content.\n"
    + "Return ONLY valid JSON with the exact keys:\n"
    + "\n"
    + "{\n"
    + "  \"summary\": \"string (2-3 lines)\",\n"
    + "  \"experienceBullets\": [\"string\", \"string\", \"string\"],\n"
    + "  \"projectBullets\": [\"string\", \"string\", \"string\"],\n"
    + "  \"skillsClean\": [\"string\", \"string\", \"string\", \"string\", \"string\"]\n"
    + "}\n"
    + "\n"
    + "Guidelines:\n"
    + "- Use strong action verbs.\n"
    + "- No emojis.\n"
    + "- Keep bullets realistic and not exaggerated.\n"
    + "- If experience is empty or fresher, create bullets based on projects/education.\n"
    + "- Use the user data below.\n"
    + "\n"
    + "USER DATA:\n"

  /** One "Label: value" line of the user-data block. */
  function FieldLine(field: (string, string)): string {
    field.0 + ": " + field.1 + "\n"
  }

  /** The labelled input fields, in the order the prompt lists them. */
  function PromptFields(input: ResumeInput): seq<(string, string)> {
    [ ("Full Name", input.fullName),
      ("Headline", input.headline),
      ("Education", input.education),
      ("Skills", input.skills),
      ("Experience", input.experience),
      ("Projects", input.projects) ]
  }

  function FieldLines(fields: seq<(string, string)>): string {
    if fields == [] then [] else FieldLine(fields[0]) + FieldLines(fields[1..])
  }

  /** A string found in a suffix is found in the whole. */
  lemma ContainsAfter(a: string, b: string, x: string)
    requires Contains(b, x)
    ensures Contains(a + b, x)
  {
    var i: nat :| i <= |b| && OccursAt(x, b, i);
    assert (a + b)[|a| + i..|a| + i + |x|] == b[i..i + |x|];
    assert OccursAt(x, a + b, |a| + i);
  }

  /** Every field's line occurs in the user-data block. */
  lemma {:induction false} FieldLinesHoldEach(fields: seq<(string, string)>, k: nat)
    requires k < |fields|
    ensures Contains(FieldLines(fields), FieldLine(fields[k]))
    decreases |fields|
  {
    if k == 0 {
      ContainsMiddle([], FieldLine(fields[0]), FieldLines(fields[1..]));
      assert [] + FieldLine(fields[0]) + FieldLines(fields[1..]) == FieldLines(fields);
    } else {
      FieldLinesHoldEach(fields[1..], k - 1);
      ContainsAfter(FieldLine(fields[0]), FieldLines(fields[1..]), FieldLine(fields[k]));
    }
  }

  /** The prompt: the fixed instructions, then one "Label: value" line for
      each of the six input fields. */
  function BuildPrompt(input: ResumeInput): (r: string)
    ensures PromptPreamble <= r
    ensures forall k :: 0 <= k < |PromptFields(input)| ==>
              Contains(r, PromptFields(input)[k].0 + ": " + PromptFields(input)[k].1 + "\n")
  {
    var fields := PromptFields(input);
    var r := PromptPreamble + FieldLines(fields);
    forall k | 0 <= k < |fields|
      ensures Contains(r, fields[k].0 + ": " + fields[k].1 + "\n")
    {
      FieldLinesHoldEach(fields, k);
      ContainsAfter(PromptPreamble, FieldLines(fields), FieldLine(fields[k]));
    }
    r
  }

  // ----------------------------------------------------------------- JSON

  /** A parsed JSON value. */
  datatype Json =
    | JNull
    | JBool(b: bool)
    | JNumber(n: real)
    | JString(s: string)
    | JArray(items: seq<Json>)
    | JObject(members: seq<(string, Json)>)

  /** A member of a parsed object; with a repeated key the last one wins. */
  function Lookup(members: seq<(string, Json)>, key: string): (r: Option<Json>)
    ensures r.None? <==> forall i :: 0 <= i < |members| ==> members[i].0 != key
    ensures r.Some? ==> exists i :: 0 <= i < |members| && members[i] == (key, r.value)
                                    && forall j :: i < j < |members| ==> members[j].0 != key
  {
    if members == [] then None
    else if members[|members| - 1].0 == key then Some(members[|members| - 1].1)
    else Lookup(members[..|members| - 1], key)
  }

  /** `json?.summary`: only an object has a `summary` property. */
  function SummaryOf(json: Json): (r: Option<Json>)
    ensures !json.JObject? ==> r.None?
    ensures json.JObject? ==> r == Lookup(json.members, "summary")
  {
    match json
    case JObject(members) => Lookup(members, "summary")
    case _ => None
  }

  /** JavaScript truthiness of a property that may be `undefined`:
      `undefined`, `null`, `false`, `0` and `""` are falsy; arrays and objects,
      even empty ones, are truthy. */
  predicate Truthy(v: Option<Json>)
    ensures v.None? || v == Some(JNull) ==> !Truthy(v)
    ensures v.Some? && (v.value.JArray? || v.value.JObject?) ==> Truthy(v)
    ensures v.Some? && v.value.JString? ==> (Truthy(v) <==> v.value.s != [])
    ensures v.Some? && v.value.JBool? ==> (Truthy(v) <==> v.value.b)
    ensures v.Some? && v.value.JNumber? ==> (Truthy(v) <==> v.value.n != 0.0)
  {
    match v
    case None => false
    case Some(JNull) => false
    case Some(JBool(b)) => b
    case Some(JNumber(n)) => n != 0.0
    case Some(JString(s)) => s != []
    case Some(JArray(_)) => true
    case Some(JObject(_)) => true
  }

  /** A thrown JavaScript error; its `message` may be missing. */
  datatype Thrown = Thrown(message: Option<string>)

  /** `e?.message ?? "Unknown error"`. */
  function ErrorMessage(e: Thrown): (r: string)
    ensures e.message.Some? ==> r == e.message.value
    ensures e.message.None? ==> r == "Unknown error"
  {
    e.message.GetOr("Unknown error")
  }

  /** What `JSON.parse` did with a text. */
  datatype Parse = Parsed(value: Json) | Threw(error: Thrown)

  /** The text the recovery attempt parses: from the first `{` through the
      last `}`, when the text has both (empty when the last `}` comes first). */
  function Candidate(text: string): (r: Option<string>)
    ensures r.Some? <==> '{' in text && '}' in text
    ensures r.Some? && r.value != [] ==>
              && r.value[0] == '{' && r.value[|r.value| - 1] == '}'
              && exists a: nat :: OccursAt(r.value, text, a) && '{' !in text[..a] && '}' !in text[a + |r.value|..]
    ensures r.Some? ==>
              (r.value == [] <==>
                 forall i, j :: 0 <= i < |text| && 0 <= j < |text| && text[i] == '{' && text[j] == '}' ==> j < i)
  {
    match (IndexOf(text, '{'), LastIndexOf(text, '}'))
    case (Some(start), Some(end)) =>
      var r := Slice(text, start, end + 1);
      if start <= end then
        assert OccursAt(r, text, start);
        assert text[start + |r|..] == text[end + 1..];
        assert text[start] == '{' && text[end] == '}';
        Some(r)
      else
        assert forall i, j :: 0 <= i < |text| && 0 <= j < |text| && text[i] == '{' && text[j] == '}' ==> j < i by {
          forall i, j | 0 <= i < |text| && 0 <= j < |text| && text[i] == '{' && text[j] == '}'
            ensures start <= i && j <= end
          {
          }
        }
        Some(r)
    case _ => None
  }

  /** The value of `json` after the parse and its recovery attempt, or the
      error that escaped the recovery attempt. */
  datatype Recovered = Value(json: Json) | Escaped(error: Thrown)

  /** Parse the model's text; when that throws, parse the brace candidate
      instead, if there is one.  With no candidate `json` stays `null`; an
      error from the second parse is not caught. */
  function Recover(text: string, parse: string -> Parse): (r: Recovered)
    ensures parse(text).Parsed? ==> r == Value(parse(text).value)
    ensures r.Escaped? ==>
              parse(text).Threw? && Candidate(text).Some? && parse(Candidate(text).value) == Threw(r.error)
    ensures parse(text).Threw? && Candidate(text).None? ==> r == Value(JNull)
    ensures parse(text).Threw? && Candidate(text).Some? && parse(Candidate(text).value).Parsed? ==>
              r == Value(parse(Candidate(text).value).value)
  {
    match parse(text)
    case Parsed(v) => Value(v)
    case Threw(_) =>
      match Candidate(text)
      case None => Value(JNull)
      case Some(c) =>
        match parse(c)
        case Parsed(v) => Value(v)
        case Threw(e) => Escaped(e)
  }

  // ---------------------------------------------------------------- route

  /** `USE_FAKE_AI === "true"`, and whether `OPENAI_API_KEY` is set to a
      non-empty value (an empty key counts as missing). */
  datatype Config = Config(useFakeAi: bool, hasApiKey: bool)

  /** The request body: unreadable JSON, or a body whose `input` may be missing. */
  datatype Body = Unreadable(error: Thrown) | Body(input: Option<ResumeInput>)

  /** What the model call did: a reply whose content may be `null`, or an error. */
  datatype Completion = Reply(content: Option<string>) | Failed(error: Thrown)

  datatype Payload = FakeResult(content: GeneratedContent) | LiveResult(json: Json)

  /** The JSON the route answers with. */
  datatype Answer =
    | Success(result: Payload)
    | Error(error: string)
    | Invalid(error: string, raw: string)

  datatype Response = Response(status: int, answer: Answer)

  const NameRequired := "fullName is required"
  const MissingKey := "Missing OPENAI_API_KEY"
  const InvalidReply := "AI response invalid"

  /** `!input?.fullName`: the input or its name is missing. */
  predicate NameMissing(body: Body)
    requires body.Body?
  {
    body.input.None? || body.input.value.fullName == []
  }

  /** The request got past validation, fake mode and the key check, so the
      model is called. */
  predicate CallsModel(body: Body, config: Config) {
    body.Body? && !NameMissing(body) && !config.useFakeAi && config.hasApiKey
  }

  /** The answer for the model's text: the parsed object when it has a
      truthy `summary`, otherwise "AI response invalid" with the raw text;
      an error escaping the recovery parse becomes a 500 with its message. */
  function Interpret(text: string, parse: string -> Parse): (r: Response)
    ensures r.status == 200 || r.status == 500
    ensures r.status == 200 <==> r.answer.Success?
    ensures r.answer.Success? ==> r.answer.result.LiveResult? && Truthy(SummaryOf(r.answer.result.json))
    ensures r.answer.Invalid? ==> r.answer == Invalid(InvalidReply, text)
    ensures r.answer.Error? <==> Recover(text, parse).Escaped?
    ensures Recover(text, parse).Value? ==>
              (r.answer.Success? <==> Truthy(SummaryOf(Recover(text, parse).json)))
    ensures r.answer.Success? ==>
              Recover(text, parse).Value? && r.answer.result == LiveResult(Recover(text, parse).json)
    ensures Recover(text, parse).Value? && !r.answer.Success? ==> r == Response(500, Invalid(InvalidReply, text))
    ensures Recover(text, parse).Escaped? ==> r == Response(500, Error(ErrorMessage(Recover(text, parse).error)))
  {
    match Recover(text, parse)
    case Escaped(e) => Response(500, Error(ErrorMessage(e)))
    case Value(json) =>
      if Truthy(SummaryOf(json)) then Response(200, Success(LiveResult(json)))
      else Response(500, Invalid(InvalidReply, text))
  }

  /** `POST /api/generate`. */
  function Post(body: Body, config: Config, complete: string -> Completion, parse: string -> Parse): (r: Response)
    ensures r.status == 200 || r.status == 400 || r.status == 500
    ensures r.status == 200 <==> r.answer.Success?
    ensures r.status == 400 <==> body.Body? && NameMissing(body)
    ensures r.status == 400 ==> r.answer == Error(NameRequired)
    ensures body.Unreadable? ==> r == Response(500, Error(ErrorMessage(body.error)))
    ensures r.answer.Success? && r.answer.result.FakeResult? ==>
              body.Body? && !NameMissing(body) && config.useFakeAi
    ensures r.answer.Success? && r.answer.result.LiveResult? ==>
              CallsModel(body, config) && Truthy(SummaryOf(r.answer.result.json))
  {
    match body
    case Unreadable(e) => Response(500, Error(ErrorMessage(e)))
    case Body(input) =>
      if input.None? || input.value.fullName == [] then Response(400, Error(NameRequired))
      else if config.useFakeAi then Response(200, Success(FakeResult(MakeFakeResult(input.value))))
      else if !config.hasApiKey then Response(500, Error(MissingKey))
      else
        match complete(BuildPrompt(input.value))
        case Failed(e) => Response(500, Error(ErrorMessage(e)))
        case Reply(content) => Interpret(content.GetOr([]), parse)
  }

  /** A missing name is rejected before the mode or the key is looked at. */
  lemma NameCheckedFirst(input: Option<ResumeInput>, config: Config,
                         complete: string -> Completion, parse: string -> Parse)
    requires input.None? || input.value.fullName == []
    ensures Post(Body(input), config, complete, parse) == Response(400, Error(NameRequired))
  {
  }

  /** Fake mode answers from the input alone, key or no key. */
  lemma FakeModeAnswersFromInput(input: ResumeInput, hasApiKey: bool,
                                 complete: string -> Completion, parse: string -> Parse)
    requires input.fullName != []
    ensures Post(Body(Some(input)), Config(true, hasApiKey), complete, parse)
            == Response(200, Success(FakeResult(MakeFakeResult(input))))
  {
  }

  /** Live mode without a key fails only after validation passed. */
  lemma MissingKeyAfterValidation(input: ResumeInput, complete: string -> Completion, parse: string -> Parse)
    requires input.fullName != []
    ensures Post(Body(Some(input)), Config(false, false), complete, parse)
            == Response(500, Error(MissingKey))
  {
  }

  /** Unless validation passed, fake mode is off and a key is set, neither
      the model nor the parser is consulted. */
  lemma ModelOnlyCalledWhenLive(body: Body, config: Config,
                                c1: string -> Completion, c2: string -> Completion,
                                p1: string -> Parse, p2: string -> Parse)
    requires !CallsModel(body, config)
    ensures Post(body, config, c1, p1) == Post(body, config, c2, p2)
  {
  }

  /** In live mode the model sees the built prompt, and its text alone decides the answer. */
  lemma LiveAnswerComesFromText(input: ResumeInput, complete: string -> Completion,
                                parse: string -> Parse, text: string)
    requires input.fullName != []
    requires complete(BuildPrompt(input)) == Reply(Some(text))
    ensures Post(Body(Some(input)), Config(false, true), complete, parse) == Interpret(text, parse)
  {
  }

  /** A reply that parses as it is decides the answer by its `summary`: the
      value itself with a 200 when the summary is truthy, otherwise "AI
      response invalid" with the raw text; the recovery is never tried. */
  lemma DirectParseDecides(text: string, parse: string -> Parse, json: Json)
    requires parse(text) == Parsed(json)
    ensures Truthy(SummaryOf(json)) ==> Interpret(text, parse) == Response(200, Success(LiveResult(json)))
    ensures !Truthy(SummaryOf(json)) ==> Interpret(text, parse) == Response(500, Invalid(InvalidReply, text))
  {
  }

  /** When the model call throws, its message is the 500 answer; a reply
      without content is read as the empty text. */
  lemma ModelFailureIsError(input: ResumeInput, complete: string -> Completion, parse: string -> Parse)
    requires input.fullName != []
    ensures complete(BuildPrompt(input)).Failed? ==>
              Post(Body(Some(input)), Config(false, true), complete, parse)
              == Response(500, Error(ErrorMessage(complete(BuildPrompt(input)).error)))
    ensures complete(BuildPrompt(input)) == Reply(None) ==>
              Post(Body(Some(input)), Config(false, true), complete, parse) == Interpret([], parse)
  {
  }

  /** A text without braces that does not parse is "AI response invalid",
      carrying the raw text. */
  lemma UnparsableWithoutBracesIsInvalid(text: string, parse: string -> Parse)
    requires '{' !in text
    requires parse(text).Threw?
    ensures Interpret(text, parse) == Response(500, Invalid(InvalidReply, text))
  {
  }

  lemma NotJsonAtAll(parse: string -> Parse)
    requires parse("not json at all").Threw?
    ensures Interpret("not json at all", parse) == Response(500, Invalid(InvalidReply, "not json at all"))
  {
    UnparsableWithoutBracesIsInvalid("not json at all", parse);
  }

  /** An object wrapped in chatter is recovered: the candidate is exactly the
      object when no `{` precedes it and no `}` follows it. */
  lemma CandidateFindsWrappedObject(prefix: string, obj: string, suffix: string)
    requires '{' !in prefix && '}' !in suffix
    requires |obj| >= 2 && obj[0] == '{' && obj[|obj| - 1] == '}'
    ensures Candidate(prefix + obj + suffix) == Some(obj)
  {
    var text := prefix + obj + suffix;
    assert text[..|prefix|] == prefix;
    assert text[|prefix|] == '{';
    assert text[|prefix| + |obj|..] == suffix;
    assert text[|prefix| + |obj| - 1] == '}';
    var start := IndexOf(text, '{');
    var end := LastIndexOf(text, '}');
    assert text[|prefix|..|prefix| + |obj|] == obj;
  }

  /** When the text does not parse but its embedded object does and has a
      summary, the route answers with that object. */
  lemma WrappedObjectIsRecovered(prefix: string, obj: string, suffix: string,
                                 parse: string -> Parse, json: Json)
    requires '{' !in prefix && '}' !in suffix
    requires |obj| >= 2 && obj[0] == '{' && obj[|obj| - 1] == '}'
    requires parse(prefix + obj + suffix).Threw?
    requires parse(obj) == Parsed(json) && Truthy(SummaryOf(json))
    ensures Interpret(prefix + obj + suffix, parse) == Response(200, Success(LiveResult(json)))
  {
    CandidateFindsWrappedObject(prefix, obj, suffix);
  }

  /** An error thrown by the recovery parse reaches the outer handler: a 500
      with its message, not "AI response invalid". */
  lemma RecoveryErrorEscapes(text: string, parse: string -> Parse, e: Thrown)
    requires parse(text).Threw?
    requires Candidate(text).Some? && parse(Candidate(text).value) == Threw(e)
    ensures Interpret(text, parse) == Response(500, Error(ErrorMessage(e)))
  {
  }
}

=== FILE: js_string.dfy ===
/**
  The JavaScript string and array primitives the resume views and the
  generation route are built from: `trim`, `split`, `join`, `filter(Boolean)`,
  `slice`, `indexOf`, `lastIndexOf` and `replaceAll`, over `string` (`seq<char>`).
*/
module JsString {
  import opened Wrappers

  /** White space as both `String.prototype.trim` and the regular-expression
      class `\s` see it: the WhiteSpace and LineTerminator code points of the
      ECMAScript Language Specification. */
  predicate IsWs(c: char) {
    || c == '\t' || c == '\n' || c == '\U{B}' || c == '\U{C}' || c == '\r' || c == ' '
    || c == '\U{A0}' || c == '\U{1680}' || ('\U{2000}' <= c <= '\U{200A}')
    || c == '\U{2028}' || c == '\U{2029}' || c == '\U{202F}' || c == '\U{205F}'
    || c == '\U{3000}' || c == '\U{FEFF}'
  }

  predicate AllWs(s: string) {
    forall i :: 0 <= i < |s| ==> IsWs(s[i])
  }

  /** Every character of `s[lo..hi]` is white space. */
  predicate WsBetween(s: string, lo: nat, hi: nat)
    requires lo <= hi <= |s|
  {
    forall i :: lo <= i < hi ==> IsWs(s[i])
  }

  /** A string with no white space at either end: what `trim` returns. */
  predicate IsTrimmed(s: string) {
    s == [] || (!IsWs(s[0]) && !IsWs(s[|s| - 1]))
  }

  /** `r` sits at offset `a` of `s` with nothing but white space around it. */
  predicate PaddedAt(s: string, r: string, a: nat) {
    && a + |r| <= |s|
    && s[a..a + |r|] == r
    && WsBetween(s, 0, a)
    && WsBetween(s, a + |r|, |s|)
  }

  /** `needle` occurs in `hay` starting at offset `i`. */
  predicate OccursAt(needle: string, hay: string, i: nat) {
    i + |needle| <= |hay| && hay[i..i + |needle|] == needle
  }

  /** `hay.includes(needle)`. */
  predicate Contains(hay: string, needle: string) {
    exists i: nat | i <= |hay| :: OccursAt(needle, hay, i)
  }

  // ---------------------------------------------------------------- trim

  /** Length of the white-space run that `s` starts with. */
  function LeadingWs(s: string): (n: nat)
    ensures n <= |s|
    ensures WsBetween(s, 0, n)
    ensures n < |s| ==> !IsWs(s[n])
  {
    if |s| > 0 && IsWs(s[0]) then 1 + LeadingWs(s[1..]) else 0
  }

  /** Length of the white-space run that `s` ends with. */
  function TrailingWs(s: string): (n: nat)
    ensures n <= |s|
    ensures WsBetween(s, |s| - n, |s|)
    ensures n < |s| ==> !IsWs(s[|s| - n - 1])
  {
    if |s| > 0 && IsWs(s[|s| - 1]) then 1 + TrailingWs(s[..|s| - 1]) else 0
  }

  /** `s.trim()`: `s` without its leading and trailing white space. */
  function Trim(s: string): (r: string)
    ensures IsTrimmed(r)
    ensures r == [] <==> AllWs(s)
    ensures exists a: nat :: PaddedAt(s, r, a)
  {
    var a := LeadingWs(s);
    if a == |s| then
      assert PaddedAt(s, [], a);
      []
    else
      var b := TrailingWs(s);
      assert !IsWs(s[a]);
      var r := s[a..|s| - b];
      assert PaddedAt(s, r, a);
      r
  }

  /** The white-space run at the front is the one that stops at the first
      visible character. */
  lemma {:induction false} LeadingWsUnique(s: string, k: nat)
    requires k <= |s| && WsBetween(s, 0, k)
    requires k < |s| ==> !IsWs(s[k])
    ensures LeadingWs(s) == k
    decreases k
  {
    if k > 0 {
      LeadingWsUnique(s[1..], k - 1);
    }
  }

  /** The white-space run at the back is the one that stops at the last
      visible character. */
  lemma {:induction false} TrailingWsUnique(s: string, k: nat)
    requires k <= |s| && WsBetween(s, |s| - k, |s|)
    requires k < |s| ==> !IsWs(s[|s| - k - 1])
    ensures TrailingWs(s) == k
    decreases k
  {
    if k > 0 {
      TrailingWsUnique(s[..|s| - 1], k - 1);
    }
  }

  /** Trimming is determined by its contract: whatever is left once white
      space is peeled off both ends is what `Trim` returns. */
  lemma TrimUnique(p: string, r: string, q: string)
    requires AllWs(p) && AllWs(q) && IsTrimmed(r)
    ensures Trim(p + r + q) == r
  {
    var s := p + r + q;
    if r == [] {
      assert s == p + q;
      LeadingWsUnique(s, |s|);
    } else {
      LeadingWsUnique(s, |p|);
      TrailingWsUnique(s, |q|);
      assert s[|p|..|s| - |q|] == r;
    }
  }

  lemma TrimTrimmed(r: string)
    requires IsTrimmed(r)
    ensures Trim(r) == r
  {
    TrimUnique([], r, []);
    assert [] + r + [] == r;
  }

  /** A string that starts with a visible character trims to one of its prefixes. */
  lemma TrimKeepsStart(s: string)
    requires |s| > 0 && !IsWs(s[0])
    ensures Trim(s) <= s
    ensures Trim(s) != []
  {
    assert LeadingWs(s) == 0;
  }

  /** Trimming never introduces a character. */
  lemma TrimKeepsOut(s: string, c: char)
    requires c !in s
    ensures c !in Trim(s)
  {
    var r := Trim(s);
    var a: nat :| PaddedAt(s, r, a);
    forall i | 0 <= i < |r| ensures r[i] != c {
      assert r[i] == s[a + i];
    }
  }

  // --------------------------------------------------------- split / join

  /** `xs.join(sep)`: the items with `sep` between neighbours. */
  function Join(xs: seq<string>, sep: string): (r: string)
    ensures xs == [] ==> r == []
    ensures |xs| == 1 ==> r == xs[0]
  {
    if |xs| == 0 then []
    else if |xs| == 1 then xs[0]
    else xs[0] + sep + Join(xs[1..], sep)
  }

  /** A joined list starts with its first element. */
  lemma {:induction false} JoinStartsWithHead(xs: seq<string>, sep: string)
    ensures |xs| >= 1 ==> xs[0] <= Join(xs, sep)
  {
    if |xs| > 1 {
      assert Join(xs, sep) == xs[0] + (sep + Join(xs[1..], sep));
    }
  }

  /** A joined list ends with its last element. */
  lemma {:induction false} JoinEndsWithLast(xs: seq<string>, sep: string)
    requires |xs| >= 1
    ensures var j := Join(xs, sep); var last := xs[|xs| - 1];
            |last| <= |j| && j[|j| - |last|..] == last
  {
    if |xs| > 1 {
      JoinEndsWithLast(xs[1..], sep);
      var rest := Join(xs[1..], sep);
      var j := Join(xs, sep);
      assert j == (xs[0] + sep) + rest;
      assert j[|j| - |rest|..] == rest;
    }
  }

  /** Joining an item in front of a non-empty list puts one separator between them. */
  lemma JoinCons(x: string, xs: seq<string>, sep: string)
    requires |xs| >= 1
    ensures Join([x] + xs, sep) == x + sep + Join(xs, sep)
  {
    assert ([x] + xs)[1..] == xs;
  }

  /** `s.split(sep)` for a non-empty separator: the pieces between the
      left-to-right, non-overlapping occurrences of `sep`; `"".split(sep)`
      is `[""]`.  Joining the pieces back with `sep` gives `s`. */
  function Split(s: string, sep: string): (r: seq<string>)
    requires sep != []
    ensures |r| >= 1
    ensures Join(r, sep) == s
    decreases |s|
  {
    if |s| < |sep| then [s]
    else if s[..|sep|] == sep then
      var rest := Split(s[|sep|..], sep);
      JoinCons([], rest, sep);
      assert s == sep + s[|sep|..];
      [[]] + rest
    else
      var rest := Split(s[1..], sep);
      var r := [[s[0]] + rest[0]] + rest[1..];
      assert Join(r, sep) == [s[0]] + Join(rest, sep) by {
        if |rest| > 1 {
          JoinCons(rest[0], rest[1..], sep);
          JoinCons([s[0]] + rest[0], rest[1..], sep);
          assert rest == [rest[0]] + rest[1..];
        }
      }
      assert s == [s[0]] + s[1..];
      r
  }

  /** No piece of a split on a single character contains that character. */
  lemma {:induction false} SplitPiecesExclude(s: string, c: char)
    ensures forall i :: 0 <= i < |Split(s, [c])| ==> c !in Split(s, [c])[i]
    decreases |s|
  {
    if |s| < 1 {
    } else if s[..1] == [c] {
      SplitPiecesExclude(s[1..], c);
      var rest := Split(s[1..], [c]);
      assert Split(s, [c]) == [[]] + rest;
    } else {
      SplitPiecesExclude(s[1..], c);
      var rest := Split(s[1..], [c]);
      assert s[0] != c by { assert s[..1] == [s[0]]; }
      assert Split(s, [c]) == [[s[0]] + rest[0]] + rest[1..];
    }
  }

  /** The first piece of a split is a prefix of the input. */
  lemma {:induction false} SplitHeadIsPrefix(s: string, sep: string)
    requires sep != []
    ensures Split(s, sep)[0] <= s
    decreases |s|
  {
    if |s| < |sep| {
    } else if s[..|sep|] == sep {
    } else {
      SplitHeadIsPrefix(s[1..], sep);
    }
  }

  /** One step of `Split` over a leading separator. */
  lemma SplitAtSep(t: string, c: char)
    ensures Split([c] + t, [c]) == [[]] + Split(t, [c])
  {
    var s := [c] + t;
    assert s[..1] == [c];
    assert s[1..] == t;
  }

  /** Splitting `a + t` on a character that `a` does not contain glues `a`
      onto the first piece of splitting `t`. */
  lemma SplitAfterPlainPrefix(a: string, t: string, c: char)
    requires c !in a
    ensures Split(a + t, [c]) == [a + Split(t, [c])[0]] + Split(t, [c])[1..]
  {
    forall k | 0 <= k < |a| ensures !OccursAt([c], a + t, k) {
      assert (a + t)[k..k + 1] == [a[k]];
    }
    SplitGlue(a, t, [c]);
  }

  /** Splitting on a character undoes joining with it, when no part holds it. */
  lemma {:induction false} SplitJoin(xs: seq<string>, c: char)
    requires |xs| >= 1
    requires forall i :: 0 <= i < |xs| ==> c !in xs[i]
    ensures Split(Join(xs, [c]), [c]) == xs
    decreases |xs|
  {
    if |xs| == 1 {
      SplitAfterPlainPrefix(xs[0], [], c);
      assert xs[0] + [] == xs[0];
      assert Split([], [c]) == [[]];
      assert Join(xs, [c]) == xs[0];
      assert xs == [xs[0]];
    } else {
      var tail := xs[1..];
      var rest := Join(tail, [c]);
      assert Join(xs, [c]) == xs[0] + ([c] + rest);
      SplitJoin(tail, c);
      SplitAtSep(rest, c);
      SplitAfterPlainPrefix(xs[0], [c] + rest, c);
      var S := Split([c] + rest, [c]);
      assert S[0] == [] && S[1..] == tail;
      assert xs[0] + S[0] == xs[0];
      assert xs == [xs[0]] + tail;
    }
  }

  /** An occurrence of `needle` that ends inside `h` does not depend on what follows `h`. */
  lemma OccursAtPrefix(needle: string, h: string, z: string, k: nat)
    requires k + |needle| <= |h|
    ensures OccursAt(needle, h + z, k) <==> OccursAt(needle, h, k)
  {
    assert (h + z)[k..k + |needle|] == h[k..k + |needle|];
  }

  /** One step of `Split` over a position where no separator starts. */
  lemma SplitPlainStep(s: string, sep: string)
    requires sep != [] && |s| > 0 && !OccursAt(sep, s, 0)
    ensures Split(s, sep) == [[s[0]] + Split(s[1..], sep)[0]] + Split(s[1..], sep)[1..]
  {
    if |s| >= |sep| {
      assert s[..|sep|] != sep;
    } else {
      assert Split(s[1..], sep) == [s[1..]];
      assert [s[0]] + s[1..] == s;
    }
  }

  /** No separator starts inside `a` when `a` is followed by `t`. */
  predicate NoSepStartsIn(a: string, t: string, sep: string) {
    forall k :: 0 <= k < |a| ==> !OccursAt(sep, a + t, k)
  }

  /** With no separator starting inside `a`, none starts inside `a[1..]` either. */
  lemma NoSepInTail(a: string, t: string, sep: string)
    requires a != [] && NoSepStartsIn(a, t, sep)
    ensures NoSepStartsIn(a[1..], t, sep)
  {
    var s := a + t;
    assert a[1..] + t == s[1..];
    forall k | 0 <= k < |a| - 1 ensures !OccursAt(sep, a[1..] + t, k) {
      assert !OccursAt(sep, s, k + 1);
      if k + |sep| <= |a[1..] + t| {
        assert (a[1..] + t)[k..k + |sep|] == s[k + 1..k + 1 + |sep|];
      }
    }
  }

  /** Gluing one more character onto the first piece of a split. */
  lemma GlueFirstPiece(c: char, a: string, r: seq<string>, pieces: seq<string>)
    requires |r| >= 1 && pieces == [a + r[0]] + r[1..]
    ensures [[c] + pieces[0]] + pieces[1..] == [([c] + a) + r[0]] + r[1..]
  {
    assert pieces[0] == a + r[0] && pieces[1..] == r[1..];
    assert [c] + (a + r[0]) == ([c] + a) + r[0];
  }

  /** Splitting `a + t`, when no separator starts inside `a`, glues `a` onto
      the first piece of splitting `t`. */
  lemma {:induction false} SplitGlue(a: string, t: string, sep: string)
    requires sep != [] && NoSepStartsIn(a, t, sep)
    ensures Split(a + t, sep) == [a + Split(t, sep)[0]] + Split(t, sep)[1..]
    decreases |a|
  {
    var R := Split(t, sep);
    if a == [] {
      assert a + t == t && a + R[0] == R[0];
      assert R == [R[0]] + R[1..];
    } else {
      var s := a + t;
      var a' := a[1..];
      assert s[0] == a[0] && s[1..] == a' + t;
      assert !OccursAt(sep, s, 0);
      NoSepInTail(a, t, sep);
      SplitGlue(a', t, sep);
      SplitPlainStep(s, sep);
      GlueFirstPiece(a[0], a', R, Split(a' + t, sep));
      assert [a[0]] + a' == a;
    }
  }

  /** One step of `Split` over a leading separator. */
  lemma SplitAfterSep(t: string, sep: string)
    requires sep != []
    ensures Split(sep + t, sep) == [[]] + Split(t, sep)
  {
    var s := sep + t;
    assert s[..|sep|] == sep && s[|sep|..] == t;
  }

  /** No separator can start inside `x` once `x` is followed by it: the
      separator put after `x` is the first one found. */
  predicate EndsBeforeSep(x: string, sep: string) {
    forall k :: 0 <= k < |x| ==> !OccursAt(sep, x + sep, k)
  }

  /** A part that ends before a separator does not contain the separator. */
  lemma SeparatedHasNoSep(x: string, sep: string)
    requires EndsBeforeSep(x, sep)
    ensures NoSepStartsIn(x, [], sep)
  {
    forall k | 0 <= k < |x| ensures !OccursAt(sep, x + [], k) {
      assert x + [] == x;
      if k + |sep| <= |x| {
        OccursAtPrefix(sep, x, sep, k);
      }
    }
  }

  /** A string that does not contain the separator splits into itself. */
  lemma SplitOfSeparated(x: string, sep: string)
    requires sep != [] && NoSepStartsIn(x, [], sep)
    ensures Split(x, sep) == [x]
  {
    SplitGlue(x, [], sep);
    assert Split([], sep) == [[]];
    assert x + [] == x;
  }

  /** Parts that a separator can be put between: every part but the last ends
      before the separator, and the last one does not contain it. */
  predicate SeparableParts(xs: seq<string>, sep: string) {
    && (forall i :: 0 <= i < |xs| - 1 ==> EndsBeforeSep(xs[i], sep))
    && (|xs| > 0 ==> NoSepStartsIn(xs[|xs| - 1], [], sep))
  }

  /** Parts that all end before the separator can be joined with it. */
  lemma AllSeparatedAreSeparable(xs: seq<string>, sep: string)
    requires forall i :: 0 <= i < |xs| ==> EndsBeforeSep(xs[i], sep)
    ensures SeparableParts(xs, sep)
  {
    if |xs| > 0 {
      SeparatedHasNoSep(xs[|xs| - 1], sep);
    }
  }

  /** Dropping the first part keeps the parts separable. */
  lemma SeparableTail(xs: seq<string>, sep: string)
    requires |xs| > 1 && SeparableParts(xs, sep)
    ensures SeparableParts(xs[1..], sep) && EndsBeforeSep(xs[0], sep)
  {
    var tail := xs[1..];
    assert tail[|tail| - 1] == xs[|xs| - 1];
    forall i | 0 <= i < |tail| - 1 ensures EndsBeforeSep(tail[i], sep) {
      assert tail[i] == xs[i + 1];
    }
  }

  /** Splitting `x`, a separator and more: `x`, then the pieces of the rest. */
  lemma SplitAfterSeparated(x: string, sep: string, rest: string)
    requires sep != [] && EndsBeforeSep(x, sep)
    ensures Split(x + (sep + rest), sep) == [x] + Split(rest, sep)
  {
    forall k | 0 <= k < |x| ensures !OccursAt(sep, x + (sep + rest), k) {
      assert x + (sep + rest) == (x + sep) + rest;
      OccursAtPrefix(sep, x + sep, rest, k);
    }
    SplitAfterSep(rest, sep);
    SplitGlue(x, sep + rest, sep);
    assert x + [] == x;
  }

  /** Splitting undoes joining, for any separator, when no separator starts
      inside a part. */
  lemma {:induction false} SplitJoinSeparated(xs: seq<string>, sep: string)
    requires sep != [] && |xs| >= 1 && SeparableParts(xs, sep)
    ensures Split(Join(xs, sep), sep) == xs
    decreases |xs|
  {
    var x := xs[0];
    if |xs| == 1 {
      SplitOfSeparated(x, sep);
      assert Join(xs, sep) == x && xs == [x];
    } else {
      var tail := xs[1..];
      assert Join(xs, sep) == x + (sep + Join(tail, sep));
      SeparableTail(xs, sep);
      SplitJoinSeparated(tail, sep);
      SplitAfterSeparated(x, sep, Join(tail, sep));
      assert xs == [x] + tail;
    }
  }

  // ------------------------------------------------------- filter / map

  /** `xs.filter(Boolean)`: the non-empty strings of `xs`, in their order. */
  function Compact(xs: seq<string>): (r: seq<string>)
    ensures |r| <= |xs|
    ensures forall i :: 0 <= i < |r| ==> r[i] != []
    ensures forall x :: x in r <==> x in xs && x != []
  {
    if |xs| == 0 then []
    else if xs[0] == [] then
      assert xs == [xs[0]] + xs[1..];
      Compact(xs[1..])
    else
      assert xs == [xs[0]] + xs[1..];
      [xs[0]] + Compact(xs[1..])
  }

  /** Filtering distributes over concatenation, so it keeps the order. */
  lemma {:induction false} CompactAppend(a: seq<string>, b: seq<string>)
    ensures Compact(a + b) == Compact(a) + Compact(b)
    decreases |a|
  {
    if a == [] {
      assert a + b == b;
    } else {
      CompactAppend(a[1..], b);
      assert (a + b)[0] == a[0];
      assert (a + b)[1..] == a[1..] + b;
    }
  }

  /** Filtering a list without empty strings changes nothing. */
  lemma {:induction false} CompactKeepsNonEmpty(xs: seq<string>)
    requires forall i :: 0 <= i < |xs| ==> xs[i] != []
    ensures Compact(xs) == xs
    decreases |xs|
  {
    if xs != [] {
      CompactKeepsNonEmpty(xs[1..]);
      assert xs == [xs[0]] + xs[1..];
    }
  }

  /** `xs.map(s => s.trim())`. */
  function TrimAll(xs: seq<string>): (r: seq<string>)
    ensures |r| == |xs|
    ensures forall i :: 0 <= i < |xs| ==> r[i] == Trim(xs[i])
  {
    seq(|xs|, i requires 0 <= i < |xs| => Trim(xs[i]))
  }

  /** `xs.slice(0, n)`. */
  function Take<T>(xs: seq<T>, n: nat): (r: seq<T>)
    ensures r <= xs
    ensures |r| == if n < |xs| then n else |xs|
  {
    if n < |xs| then xs[..n] else xs
  }

  /** `s.split(sep).map(t => t.trim()).filter(Boolean)`: the visible,
      trimmed fields of `s`, in order. */
  function Fields(s: string, sep: string): (r: seq<string>)
    requires sep != []
    ensures forall i :: 0 <= i < |r| ==> r[i] != [] && IsTrimmed(r[i])
  {
    var trimmed := TrimAll(Split(s, sep));
    assert forall x :: x in trimmed ==> IsTrimmed(x);
    Compact(trimmed)
  }

  /** `Fields` for a one-character separator; no field holds the separator. */
  function Tokens(s: string, sep: char): (r: seq<string>)
    ensures forall i :: 0 <= i < |r| ==> r[i] != [] && IsTrimmed(r[i]) && sep !in r[i]
  {
    var pieces := Split(s, [sep]);
    SplitPiecesExclude(s, sep);
    var trimmed := TrimAll(pieces);
    assert forall x :: x in trimmed ==> sep !in x by {
      forall i | 0 <= i < |trimmed| ensures sep !in trimmed[i] {
        TrimKeepsOut(pieces[i], sep);
      }
    }
    Fields(s, [sep])
  }

  /** Filtering a list of empty strings leaves nothing. */
  lemma {:induction false} CompactOfBlanks(xs: seq<string>)
    requires forall i :: 0 <= i < |xs| ==> xs[i] == []
    ensures Compact(xs) == []
    decreases |xs|
  {
    if xs != [] {
      CompactOfBlanks(xs[1..]);
    }
  }

  /** Every piece joined with a blank separator into a blank string is blank. */
  lemma {:induction false} JoinedPiecesAreBlank(pieces: seq<string>, sep: string, i: nat)
    requires i < |pieces| && AllWs(Join(pieces, sep))
    ensures AllWs(pieces[i])
    decreases |pieces|
  {
    if |pieces| > 1 {
      var j := Join(pieces, sep);
      var rest := Join(pieces[1..], sep);
      assert j == pieces[0] + (sep + rest);
      if i == 0 {
        assert forall k :: 0 <= k < |pieces[0]| ==> pieces[0][k] == j[k];
      } else {
        assert forall k :: 0 <= k < |rest| ==> rest[k] == j[|pieces[0]| + |sep| + k];
        JoinedPiecesAreBlank(pieces[1..], sep, i - 1);
      }
    }
  }

  /** A blank string has no fields. */
  lemma FieldsOfBlank(s: string, sep: string)
    requires sep != []
    ensures AllWs(s) ==> Fields(s, sep) == []
  {
    if AllWs(s) {
      var pieces := Split(s, sep);
      var trimmed := TrimAll(pieces);
      forall i | 0 <= i < |pieces| ensures trimmed[i] == [] {
        JoinedPiecesAreBlank(pieces, sep, i);
      }
      CompactOfBlanks(trimmed);
    }
  }

  /** Splitting, trimming and filtering parts joined by a separator gives
      back the trimmed non-empty parts, when no separator starts inside a part. */
  lemma FieldsOfJoin(parts: seq<string>, sep: string)
    requires sep != [] && SeparableParts(parts, sep)
    ensures Fields(Join(parts, sep), sep) == Compact(TrimAll(parts))
  {
    if parts == [] {
      assert Split([], sep) == [[]];
      assert TrimAll([[]]) == [[]] by { TrimTrimmed([]); }
    } else {
      SplitJoinSeparated(parts, sep);
    }
  }

  /** The trimmed, non-empty lines of `s`. */
  function Lines(s: string): (r: seq<string>)
    ensures forall i :: 0 <= i < |r| ==> r[i] != [] && IsTrimmed(r[i]) && '\n' !in r[i]
  {
    Tokens(s, '\n')
  }

  /** Visible, trimmed, one-line strings: what `Lines` produces. */
  predicate VisibleLines(parts: seq<string>) {
    forall i :: 0 <= i < |parts| ==> parts[i] != [] && IsTrimmed(parts[i]) && '\n' !in parts[i]
  }

  /** Joining lines that are each visible and trimmed and asking for the
      lines again gives back exactly those lines. */
  lemma LinesOfJoin(parts: seq<string>)
    requires VisibleLines(parts)
    ensures Lines(Join(parts, "\n")) == parts
  {
    TokensOfJoin(parts, '\n');
    assert TrimAll(parts) == parts by {
      forall i | 0 <= i < |parts| ensures Trim(parts[i]) == parts[i] {
        TrimTrimmed(parts[i]);
      }
    }
    CompactKeepsNonEmpty(parts);
  }

  /** No two line breaks side by side. */
  predicate NoTwoBreaks(j: string) {
    forall k :: 0 <= k < |j| - 1 ==> j[k] != '\n' || j[k + 1] != '\n'
  }

  /** Visible one-line strings joined by line breaks never put two line
      breaks side by side. */
  lemma {:induction false} NoDoubleBreak(parts: seq<string>)
    requires VisibleLines(parts)
    ensures NoTwoBreaks(Join(parts, "\n"))
    decreases |parts|
  {
    if |parts| > 1 {
      var p := parts[0];
      var tail := parts[1..];
      var rest := Join(tail, "\n");
      var j := Join(parts, "\n");
      assert j == p + "\n" + rest;
      assert VisibleLines(tail);
      NoDoubleBreak(tail);
      JoinStartsWithHead(tail, "\n");
      assert rest[0] == tail[0][0];
      forall k | 0 <= k < |j| - 1 ensures j[k] != '\n' || j[k + 1] != '\n' {
        if k < |p| {
          assert j[k] == p[k];
        } else if k > |p| {
          assert j[k] == rest[k - |p| - 1] && j[k + 1] == rest[k - |p|];
        }
      }
    } else if |parts| == 1 {
      assert Join(parts, "\n") == parts[0];
    }
  }

  /** Visible one-line strings joined by line breaks hold no blank line. */
  lemma NoBlankLineInJoin(parts: seq<string>)
    requires VisibleLines(parts)
    ensures !Contains(Join(parts, "\n"), "\n\n")
  {
    var j := Join(parts, "\n");
    NoDoubleBreak(parts);
    assert NoTwoBreaks(j);
    forall i: nat | i <= |j| ensures !OccursAt("\n\n", j, i) {
      if i + 2 <= |j| {
        var w := j[i..i + 2];
        assert w[0] == j[i] && w[1] == j[i + 1];
        assert j[i] != '\n' || j[i + 1] != '\n';
        assert w != "\n\n";
      }
    }
  }

  /** A join whose first and last items are visible and trimmed is visible and trimmed. */
  lemma JoinOfTrimmed(parts: seq<string>, sep: string)
    requires |parts| >= 1
    requires parts[0] != [] && IsTrimmed(parts[0])
    requires parts[|parts| - 1] != [] && IsTrimmed(parts[|parts| - 1])
    ensures Join(parts, sep) != [] && IsTrimmed(Join(parts, sep))
  {
    var j := Join(parts, sep);
    var last := parts[|parts| - 1];
    JoinStartsWithHead(parts, sep);
    JoinEndsWithLast(parts, sep);
    assert j[0] == parts[0][0];
    assert j[|j| - 1] == last[|last| - 1];
  }

  /** Tokenising fields joined by the separator gives back those fields,
      trimmed, with the blank ones dropped. */
  lemma TokensOfJoin(parts: seq<string>, sep: char)
    requires forall i :: 0 <= i < |parts| ==> sep !in parts[i]
    ensures Tokens(Join(parts, [sep]), sep) == Compact(TrimAll(parts))
  {
    if parts == [] {
      assert Split([], [sep]) == [[]];
      assert TrimAll([[]]) == [[]] by { TrimTrimmed([]); }
    } else {
      SplitJoin(parts, sep);
    }
  }

  /** Each item with `pad` in front. */
  function Padded(xs: seq<string>, pad: string): (r: seq<string>)
    ensures |r| == |xs|
    ensures forall i :: 0 <= i < |xs| ==> r[i] == pad + xs[i]
  {
    seq(|xs|, i requires 0 <= i < |xs| => pad + xs[i])
  }

  /** Joining padded items with `sep` is joining the items with `sep + pad`,
      one `pad` in front. */
  lemma {:induction false} JoinPadded(xs: seq<string>, sep: string, pad: string)
    requires |xs| >= 1
    ensures Join(Padded(xs, pad), sep) == pad + Join(xs, sep + pad)
  {
    if |xs| > 1 {
      var rest := Join(xs[1..], sep + pad);
      JoinPadded(xs[1..], sep, pad);
      assert Padded(xs, pad)[1..] == Padded(xs[1..], pad);
      calc {
        Join(Padded(xs, pad), sep);
        (pad + xs[0]) + sep + Join(Padded(xs[1..], pad), sep);
        (pad + xs[0]) + sep + (pad + rest);
        pad + (xs[0] + (sep + pad) + rest);
      }
    }
  }

  /** The pieces splitting "a<sep><pad>b<sep><pad>c" on `sep` gives: the
      first item, then the others each with `pad` in front. */
  function PaddedParts(xs: seq<string>, pad: string): (r: seq<string>)
    requires |xs| >= 1
    ensures |r| == |xs| && r[0] == xs[0]
    ensures forall i :: 1 <= i < |xs| ==> r[i] == pad + xs[i]
  {
    [xs[0]] + Padded(xs[1..], pad)
  }

  lemma JoinPaddedPartsStep(xs: seq<string>, sep: string, pad: string)
    requires |xs| > 1
    ensures Join(PaddedParts(xs, pad), sep) == Join(xs, sep + pad)
  {
    var parts := PaddedParts(xs, pad);
    var rest := Join(xs[1..], sep + pad);
    assert parts[1..] == Padded(xs[1..], pad);
    JoinPadded(xs[1..], sep, pad);
    calc {
      Join(parts, sep);
      xs[0] + sep + (pad + rest);
      xs[0] + (sep + pad) + rest;
    }
  }

  /** Joining the padded parts with `sep` rebuilds the list joined by `sep + pad`. */
  lemma JoinPaddedParts(xs: seq<string>, sep: string, pad: string)
    requires |xs| >= 1
    ensures Join(PaddedParts(xs, pad), sep) == Join(xs, sep + pad)
  {
    if |xs| > 1 {
      JoinPaddedPartsStep(xs, sep, pad);
    }
  }

  lemma TrimPaddedParts(xs: seq<string>, pad: string)
    requires |xs| >= 1 && AllWs(pad)
    requires forall i :: 0 <= i < |xs| ==> IsTrimmed(xs[i])
    ensures TrimAll(PaddedParts(xs, pad)) == xs
  {
    var parts := PaddedParts(xs, pad);
    forall i | 0 <= i < |parts| ensures Trim(parts[i]) == xs[i] {
      if i == 0 {
        TrimTrimmed(xs[0]);
      } else {
        assert parts[i] == pad + xs[i] + [];
        TrimUnique(pad, xs[i], []);
      }
    }
  }

  /** Items that survive being written as "a, b, c": none is blank, padded
      or holds a comma. */
  predicate CommaItems(xs: seq<string>) {
    forall i :: 0 <= i < |xs| ==> xs[i] != [] && IsTrimmed(xs[i]) && ',' !in xs[i]
  }

  /** A list written out as "a, b, c" splits on `,` back into the same list. */
  lemma CommaListRoundTrip(xs: seq<string>)
    requires |xs| >= 1 && CommaItems(xs)
    ensures Tokens(Join(xs, ", "), ',') == xs
  {
    var parts := PaddedParts(xs, " ");
    forall i | 0 <= i < |parts| ensures ',' !in parts[i] {
      if i > 0 { assert parts[i] == " " + xs[i]; }
    }
    JoinPaddedParts(xs, ",", " ");
    TrimPaddedParts(xs, " ");
    TokensOfJoin(parts, ',');
    CompactKeepsNonEmpty(xs);
    calc {
      Tokens(Join(xs, ", "), ',');
      { assert "," + " " == ", "; }
      Tokens(Join(parts, [',']), ',');
      Compact(TrimAll(parts));
      xs;
    }
  }

  /** `Lines` is split on line breaks, trim, then filter(Boolean). */
  lemma LinesAreFields(s: string)
    ensures Lines(s) == Compact(TrimAll(Split(s, "\n")))
  {
    assert ['\n'] == "\n";
  }

  /** When the first piece starts with a visible character, the first field is
      that piece trimmed. */
  lemma FirstFieldOfVisible(pieces: seq<string>)
    requires |pieces| > 0 && |pieces[0]| > 0 && !IsWs(pieces[0][0])
    ensures |Compact(TrimAll(pieces))| > 0
    ensures Compact(TrimAll(pieces))[0] == Trim(pieces[0])
  {
    TrimKeepsStart(pieces[0]);
    var trimmed := TrimAll(pieces);
    assert trimmed == [Trim(pieces[0])] + trimmed[1..];
  }

  /** A string with a visible character has at least one line, and the first
      one is a prefix of the string. */
  lemma LinesOfVisible(s: string)
    requires |s| > 0 && !IsWs(s[0])
    ensures |Lines(s)| > 0
    ensures Lines(s)[0] <= s
  {
    var head := Split(s, "\n")[0];
    assert s[..1] != "\n" by { assert s[..1] == [s[0]]; }
    SplitHeadIsPrefix(s, "\n");
    assert |head| > 0 && head[0] == s[0];
    FirstFieldOfVisible(Split(s, "\n"));
    TrimKeepsStart(head);
    LinesAreFields(s);
  }

  // ------------------------------------------------ search and replace

  /** `s.indexOf(c)`, with `None` standing for -1. */
  function IndexOf(s: string, c: char): (r: Option<nat>)
    ensures r.None? <==> c !in s
    ensures r.Some? ==> r.value < |s| && s[r.value] == c && c !in s[..r.value]
  {
    if |s| == 0 then None
    else if s[0] == c then Some(0)
    else
      match IndexOf(s[1..], c)
      case None => None
      case Some(i) =>
        assert s[..i + 1] == [s[0]] + s[1..][..i];
        Some(i + 1)
  }

  /** `s.lastIndexOf(c)`, with `None` standing for -1. */
  function LastIndexOf(s: string, c: char): (r: Option<nat>)
    ensures r.None? <==> c !in s
    ensures r.Some? ==> r.value < |s| && s[r.value] == c && c !in s[r.value + 1..]
  {
    if |s| == 0 then None
    else if s[|s| - 1] == c then Some(|s| - 1)
    else
      var r := LastIndexOf(s[..|s| - 1], c);
      assert s == s[..|s| - 1] + [s[|s| - 1]];
      if r.Some? then
        assert s[r.value + 1..] == s[..|s| - 1][r.value + 1..] + [s[|s| - 1]];
        r
      else r
  }

  /** `s.slice(a, b)` for non-negative bounds: empty when the range is. */
  function Slice(s: string, a: nat, b: nat): (r: string)
    ensures |r| <= |s|
    ensures a < b <= |s| ==> r == s[a..b]
    ensures b <= a ==> r == []
  {
    var e := if b < |s| then b else |s|;
    if a < e then s[a..e] else []
  }

  /** `s.replaceAll(from, to)` for one-character patterns. */
  function ReplaceChar(s: string, from: char, to: char): (r: string)
    ensures |r| == |s|
    ensures from != to ==> from !in r
    ensures forall i :: 0 <= i < |s| && s[i] != from ==> r[i] == s[i]
    ensures forall i :: 0 <= i < |s| && s[i] == from ==> r[i] == to
  {
    seq(|s|, i requires 0 <= i < |s| => if s[i] == from then to else s[i])
  }

  /** A string occurs in any concatenation it is placed in the middle of. */
  lemma ContainsMiddle(a: string, x: string, b: string)
    ensures Contains(a + x + b, x)
  {
    assert (a + x + b)[|a|..|a| + |x|] == x;
    assert OccursAt(x, a + x + b, |a|);
  }

  /** Both fillers of a two-hole template occur in the filled text. */
  lemma ContainsPieces(a: string, x: string, b: string, y: string, c: string)
    ensures Contains(a + x + b + y + c, x) && Contains(a + x + b + y + c, y)
  {
    ContainsMiddle(a, x, b + y + c);
    assert a + x + (b + y + c) == a + x + b + y + c;
    ContainsMiddle(a + x + b, y, c);
  }
}

=== FILE: preview.dfy ===
/**
  The on-screen preview page: the download file name and the quick text
  preview of a resume.  It resolves the sections differently from the PDF:
  skills are shown unsplit, AI experience bullets are shown unfiltered,
  projects are parsed into paragraph blocks, and education is not capped.
*/
module Preview {
  import opened Wrappers
  import opened JsString
  import opened Resume
  import ResumePdf

  const DefaultFileBase := "resume"
  const FileExtension := ".pdf"
  const SummaryPlaceholder := "Generate AI summary from /app first."
  const SkillsPlaceholder := "Add skills"
  const ExperiencePlaceholder := "Add experience or generate with AI."
  /** Projects are written as paragraphs separated by a blank line. */
  const ParagraphBreak := "\n\n"

  /** One project: its first line, and the bullet lines below it. */
  datatype ProjectBlock = ProjectBlock(heading: string, bullets: seq<string>)

  datatype PreviewHeader = PreviewHeader(name: string, headline: string, contact: string, links: seq<Link>)

  datatype PreviewView = PreviewView(
    fileName: string,
    header: PreviewHeader,
    summary: Block,
    skills: Block,
    experience: Block,
    projects: seq<ProjectBlock>,
    education: seq<string>)

  // ------------------------------------------------------------ file name

  /** The download name: the title, or "resume" when it is empty, with every
      space turned into `_`, then ".pdf". */
  function FileName(title: string): (r: string)
    ensures ' ' !in r
    ensures |r| >= |FileExtension| && r[|r| - |FileExtension|..] == FileExtension
    ensures title == [] ==> r == DefaultFileBase + FileExtension
    ensures title != [] ==> |r| == |title| + |FileExtension|
    ensures title != [] ==> forall i :: 0 <= i < |title| && title[i] != ' ' ==> r[i] == title[i]
    ensures title != [] ==> forall i :: 0 <= i < |title| && title[i] == ' ' ==> r[i] == '_'
  {
    var base := ReplaceChar(Or(title, DefaultFileBase), ' ', '_');
    var r := base + FileExtension;
    assert r[|r| - |FileExtension|..] == FileExtension;
    assert forall i :: 0 <= i < |base| ==> r[i] == base[i];
    r
  }

  /** A title without spaces is kept as it is. */
  lemma FileNameKeepsPlainTitle(title: string)
    requires title != [] && ' ' !in title
    ensures FileName(title) == title + FileExtension
  {
    var r := FileName(title);
    assert r[..|title|] == title;
    assert r == r[..|title|] + r[|title|..];
  }

  // --------------------------------------------------------------- header

  /** The preview's contact line: the email, a space, then "| phone" when
      there is a phone. */
  function ContactText(email: string, phone: string): (r: string)
    ensures |r| > |email|
    ensures r[..|email| + 1] == email + " "
    ensures phone == [] ==> r == email + " "
    ensures phone != [] ==> r[|email| + 1..] == "| " + phone
  {
    var r := email + " " + (if phone != [] then "| " + phone else []);
    assert r[..|email| + 1] == email + " ";
    r
  }

  /** With both email and phone the preview's contact line is the PDF's;
      otherwise the preview keeps the space (and the bar) the PDF drops. */
  lemma ContactLinesAgreeWhenBothPresent(email: string, phone: string)
    ensures email != [] && phone != [] ==>
              ContactText(email, phone) == ResumePdf.ContactLine(email, phone)
    ensures email == [] && phone != [] ==>
              ContactText(email, phone) == ResumePdf.ContactSeparator + ResumePdf.ContactLine(email, phone)
    ensures phone == [] ==>
              ContactText(email, phone) == ResumePdf.ContactLine(email, phone) + " "
  {
    if email != [] && phone != [] {
      var r := ContactText(email, phone);
      assert r == r[..|email| + 1] + r[|email| + 1..];
      assert email + " " + ("| " + phone) == email + ResumePdf.ContactSeparator + phone;
    } else if email == [] && phone != [] {
      var r := ContactText(email, phone);
      assert r == r[..|email| + 1] + r[|email| + 1..];
      assert " " + ("| " + phone) == ResumePdf.ContactSeparator + phone;
    }
  }

  /** The preview's header: name and headline as typed, with no fallback. */
  function Header(d: ResumeData): (r: PreviewHeader)
    ensures r.name == d.fullName && r.headline == d.headline
    ensures r.contact == ContactText(d.email, d.phone)
    ensures r.links == LinkRow(d)
  {
    PreviewHeader(d.fullName, d.headline, ContactText(d.email, d.phone), LinkRow(d))
  }

  /** The preview and the PDF show the same link row and the same filled-in
      name and headline; only the PDF puts fixed text in place of an empty one. */
  lemma HeaderAgainstPdf(title: string, d: ResumeData)
    ensures Header(d).links == ResumePdf.Render(title, d).header.links
    ensures d.fullName != [] ==> Header(d).name == ResumePdf.Render(title, d).header.name
    ensures d.fullName == [] ==>
              Header(d).name == [] && ResumePdf.Render(title, d).header.name == ResumePdf.DefaultName
    ensures d.headline != [] ==> Header(d).headline == ResumePdf.Render(title, d).header.headline
    ensures d.headline == [] ==>
              Header(d).headline == [] && ResumePdf.Render(title, d).header.headline == ResumePdf.DefaultHeadline
  {
  }

  // ---------------------------------------------- summary / skills / experience

  /** Skills: the AI list joined by ", " when it has items, else the raw
      skills field exactly as typed; "Add skills" when that text is empty. */
  function SkillsBlock(d: ResumeData): (r: Block)
    ensures !HasItems(d.aiSkillsClean) && d.skills != [] ==> r == Prose(d.skills)
    ensures HasItems(d.aiSkillsClean) && Join(d.aiSkillsClean.value, ", ") != [] ==>
              r == Prose(Join(d.aiSkillsClean.value, ", "))
    ensures r == Placeholder(SkillsPlaceholder) <==>
              if HasItems(d.aiSkillsClean) then Join(d.aiSkillsClean.value, ", ") == [] else d.skills == []
  {
    TextOr(if HasItems(d.aiSkillsClean) then Join(d.aiSkillsClean.value, ", ") else d.skills, SkillsPlaceholder)
  }

  /** Experience: every AI bullet, unfiltered and uncapped, when there are
      any; otherwise the raw experience text as typed, or the placeholder. */
  function ExperienceBlock(d: ResumeData): (r: Block)
    ensures HasItems(d.aiExperienceBullets) ==> r == Rows(d.aiExperienceBullets.value)
    ensures !HasItems(d.aiExperienceBullets) && d.experience != [] ==> r == Prose(d.experience)
    ensures r == Placeholder(ExperiencePlaceholder) <==>
              !HasItems(d.aiExperienceBullets) && d.experience == []
  {
    if HasItems(d.aiExperienceBullets) then Rows(d.aiExperienceBullets.value)
    else TextOr(d.experience, ExperiencePlaceholder)
  }

  // ------------------------------------------------------------- projects

  /** Length of the run of `-` that `s` starts with. */
  function LeadingDashes(s: string): (n: nat)
    ensures n <= |s|
    ensures forall i :: 0 <= i < n ==> s[i] == '-'
    ensures n < |s| ==> s[n] != '-'
  {
    if |s| > 0 && s[0] == '-' then 1 + LeadingDashes(s[1..]) else 0
  }

  /** `s.replace(/^-+\s?/, "")`: drops a leading run of dashes and at most one
      white-space character after it; a line not starting with `-` is kept. */
  function StripMarker(s: string): (r: string)
    ensures |r| <= |s| && r == s[|s| - |r|..]
    ensures LeadingDashes(s) == 0 ==> r == s
    ensures var n := LeadingDashes(s); n > 0 ==>
              || (|s| - |r| == n + 1 && IsWs(s[n]))
              || (|s| - |r| == n && (n == |s| || !IsWs(s[n])))
  {
    var n := LeadingDashes(s);
    if n == 0 then s
    else if n < |s| && IsWs(s[n]) then s[n + 1..]
    else s[n..]
  }

  /** A bullet line as shown: its marker stripped, then trimmed again. */
  function Bullet(line: string): (r: string)
    ensures IsTrimmed(r)
    ensures LeadingDashes(line) == 0 ==> r == Trim(line)
    ensures !AllWs(line) && LeadingDashes(line) == 0 ==> r != []
  {
    Trim(StripMarker(line))
  }

  /** `d` is a run of dashes. */
  predicate IsDashRun(d: string) {
    forall i :: 0 <= i < |d| ==> d[i] == '-'
  }

  lemma {:induction false} LeadingDashesOfRun(d: string, t: string)
    requires IsDashRun(d) && (t == [] || t[0] != '-')
    ensures LeadingDashes(d + t) == |d|
  {
    if d != [] {
      assert (d + t)[1..] == d[1..] + t;
      LeadingDashesOfRun(d[1..], t);
    } else {
      assert d + t == t;
    }
  }

  /** A bullet written with a dash marker, with or without one space after
      it, is shown as its text. */
  lemma BulletOfMarkedLine(d: string, t: string)
    requires d != [] && IsDashRun(d)
    requires IsTrimmed(t) && (t == [] || t[0] != '-')
    ensures Bullet(d + " " + t) == t
    ensures Bullet(d + t) == t
  {
    TrimTrimmed(t);
    var spaced := d + " " + t;
    assert spaced == d + (" " + t);
    LeadingDashesOfRun(d, " " + t);
    assert spaced[|d|] == ' ' && spaced[|d| + 1..] == t;
    LeadingDashesOfRun(d, t);
    assert (d + t)[|d|..] == t;
  }

  /** Only the first dash run is a marker: "- - x" is shown as "- x". */
  lemma BulletKeepsLaterDashes()
    ensures Bullet("- - x") == "- x"
  {
    var s := "- - x";
    assert LeadingDashes(s[1..]) == 0;
    assert StripMarker(s) == "- x";
    TrimTrimmed("- x");
  }

  /** `lines.map(Bullet)`. */
  function BulletAll(lines: seq<string>): (r: seq<string>)
    ensures |r| == |lines|
    ensures forall i :: 0 <= i < |lines| ==> r[i] == Bullet(lines[i])
  {
    seq(|lines|, i requires 0 <= i < |lines| => Bullet(lines[i]))
  }

  /** The bullets of a block's later lines: each line shown as a bullet,
      the ones that end up empty dropped. */
  function Bullets(lines: seq<string>): (r: seq<string>)
    ensures |r| <= |lines|
    ensures forall i :: 0 <= i < |r| ==> r[i] != [] && IsTrimmed(r[i])
    ensures r == Compact(BulletAll(lines))
  {
    var shown := BulletAll(lines);
    var kept := Compact(shown);
    assert forall i :: 0 <= i < |kept| ==> kept[i] in shown;
    kept
  }

  /** One paragraph of the projects field: its first non-empty line is the
      heading, kept as it is; each later non-empty line becomes a bullet. */
  function ParseBlock(block: string): (r: ProjectBlock)
    requires block != [] && IsTrimmed(block)
    ensures |Lines(block)| > 0
    ensures r.heading == Lines(block)[0]
    ensures r.heading != [] && IsTrimmed(r.heading) && '\n' !in r.heading
    ensures r.heading <= block
    ensures |r.bullets| <= |Lines(block)| - 1
    ensures forall i :: 0 <= i < |r.bullets| ==> r.bullets[i] != [] && IsTrimmed(r.bullets[i])
    ensures r.bullets == Bullets(Lines(block)[1..])
  {
    LinesOfVisible(block);
    var lines := Lines(block);
    ProjectBlock(lines[0], Bullets(lines[1..]))
  }

  /** The marker a bullet line is usually written with. */
  const BulletMarker := "-"

  /** Each bullet written as a "- " line. */
  function Marked(bullets: seq<string>): (r: seq<string>)
    ensures |r| == |bullets|
    ensures forall i :: 0 <= i < |bullets| ==> r[i] == BulletMarker + " " + bullets[i]
  {
    seq(|bullets|, i requires 0 <= i < |bullets| => BulletMarker + " " + bullets[i])
  }

  /** Bullet texts that are written as one "- " line each and read back as
      themselves: not blank, not padded, one line, not starting with `-`. */
  predicate PlainBullets(bullets: seq<string>) {
    forall i :: 0 <= i < |bullets| ==>
      bullets[i] != [] && IsTrimmed(bullets[i]) && '\n' !in bullets[i] && bullets[i][0] != '-'
  }

  /** A heading line and "- " bullet lines are each visible, trimmed and one line. */
  lemma WrittenLinesVisible(heading: string, bullets: seq<string>)
    requires heading != [] && IsTrimmed(heading) && '\n' !in heading
    requires PlainBullets(bullets)
    ensures VisibleLines([heading] + Marked(bullets))
  {
    var parts := [heading] + Marked(bullets);
    forall i | 0 <= i < |parts| ensures parts[i] != [] && IsTrimmed(parts[i]) && '\n' !in parts[i] {
      if i > 0 {
        var b := bullets[i - 1];
        assert parts[i] == BulletMarker + " " + b;
        assert parts[i][|parts[i]| - 1] == b[|b| - 1];
      }
    }
  }

  /** A heading line followed by "- " bullet lines: the block and its lines. */
  lemma WrittenBlockLines(heading: string, bullets: seq<string>)
    requires heading != [] && IsTrimmed(heading) && '\n' !in heading
    requires PlainBullets(bullets)
    ensures var block := Join([heading] + Marked(bullets), "\n");
            block != [] && IsTrimmed(block) && Lines(block) == [heading] + Marked(bullets)
  {
    var parts := [heading] + Marked(bullets);
    WrittenLinesVisible(heading, bullets);
    JoinOfTrimmed(parts, "\n");
    LinesOfJoin(parts);
  }

  /** "- " bullet lines are read back as the bullet texts. */
  lemma MarkedBulletsReadBack(bullets: seq<string>)
    requires PlainBullets(bullets)
    ensures Bullets(Marked(bullets)) == bullets
  {
    var marked := Marked(bullets);
    assert IsDashRun(BulletMarker);
    forall i | 0 <= i < |bullets| ensures Bullet(marked[i]) == bullets[i] {
      BulletOfMarkedLine(BulletMarker, bullets[i]);
    }
    assert BulletAll(marked) == bullets;
    CompactKeepsNonEmpty(bullets);
  }

  /** A project written as its heading and "- " bullet lines parses back to
      that heading and those bullets. */
  lemma ParseBlockOfWritten(heading: string, bullets: seq<string>)
    requires heading != [] && IsTrimmed(heading) && '\n' !in heading
    requires PlainBullets(bullets)
    ensures var block := Join([heading] + Marked(bullets), "\n");
            block != [] && IsTrimmed(block) && ParseBlock(block) == ProjectBlock(heading, bullets)
  {
    var parts := [heading] + Marked(bullets);
    var block := Join(parts, "\n");
    WrittenBlockLines(heading, bullets);
    MarkedBulletsReadBack(bullets);
    assert Lines(block)[1..] == Marked(bullets);
  }

  /** The paragraphs of the projects field, trimmed, empty ones dropped. */
  function Paragraphs(projects: string): (r: seq<string>)
    ensures forall i :: 0 <= i < |r| ==> r[i] != [] && IsTrimmed(r[i])
    ensures AllWs(projects) ==> r == []
  {
    FieldsOfBlank(projects, ParagraphBreak);
    Fields(projects, ParagraphBreak)
  }

  /** Paragraphs as they are written between blank lines: visible, trimmed,
      and without a blank line inside. */
  predicate SeparateParagraphs(ps: seq<string>) {
    forall i :: 0 <= i < |ps| ==> ps[i] != [] && IsTrimmed(ps[i]) && !Contains(ps[i], ParagraphBreak)
  }

  /** A trimmed paragraph without a blank line inside cannot let a paragraph
      break start inside it: it does not end in a line break. */
  lemma ParagraphEndsBeforeBreak(p: string)
    requires p != [] && IsTrimmed(p) && !Contains(p, ParagraphBreak)
    ensures EndsBeforeSep(p, ParagraphBreak)
  {
    var s := p + ParagraphBreak;
    forall k | 0 <= k < |p| ensures !OccursAt(ParagraphBreak, s, k) {
      if k + |ParagraphBreak| <= |p| {
        OccursAtPrefix(ParagraphBreak, p, ParagraphBreak, k);
        assert !OccursAt(ParagraphBreak, p, k);
      } else {
        var w := s[k..k + |ParagraphBreak|];
        assert w[0] == p[|p| - 1];
        assert w != ParagraphBreak;
      }
    }
  }

  /** Paragraphs written with a blank line between them are read back as
      those paragraphs. */
  lemma ParagraphsOfJoin(ps: seq<string>)
    requires SeparateParagraphs(ps)
    ensures Paragraphs(Join(ps, ParagraphBreak)) == ps
  {
    forall i | 0 <= i < |ps| ensures EndsBeforeSep(ps[i], ParagraphBreak) {
      ParagraphEndsBeforeBreak(ps[i]);
    }
    AllSeparatedAreSeparable(ps, ParagraphBreak);
    FieldsOfJoin(ps, ParagraphBreak);
    assert TrimAll(ps) == ps by {
      forall i | 0 <= i < |ps| ensures Trim(ps[i]) == ps[i] {
        TrimTrimmed(ps[i]);
      }
    }
    CompactKeepsNonEmpty(ps);
  }

  /** The project blocks of the preview, one per paragraph. */
  function ParseProjects(projects: string): (r: seq<ProjectBlock>)
    ensures |r| == |Paragraphs(projects)|
    ensures AllWs(projects) ==> r == []
    ensures forall i :: 0 <= i < |r| ==>
              && r[i].heading != [] && IsTrimmed(r[i].heading) && '\n' !in r[i].heading
              && r[i].heading <= Paragraphs(projects)[i]
              && (forall k :: 0 <= k < |r[i].bullets| ==> r[i].bullets[k] != [] && IsTrimmed(r[i].bullets[k]))
    ensures forall i :: 0 <= i < |r| ==> r[i] == ParseBlock(Paragraphs(projects)[i])
  {
    var paragraphs := Paragraphs(projects);
    seq(|paragraphs|, i requires 0 <= i < |paragraphs| => ParseBlock(paragraphs[i]))
  }

  /** A project that can be typed so that it reads back as itself. */
  predicate Writable(b: ProjectBlock) {
    b.heading != [] && IsTrimmed(b.heading) && '\n' !in b.heading && PlainBullets(b.bullets)
  }

  /** A project as it is typed: its heading line, then one "- " line per bullet. */
  function WrittenBlock(b: ProjectBlock): string {
    Join([b.heading] + Marked(b.bullets), "\n")
  }

  /** Projects as they are typed into the field, a blank line between two. */
  function WrittenProjects(ps: seq<ProjectBlock>): string {
    Join(seq(|ps|, i requires 0 <= i < |ps| => WrittenBlock(ps[i])), ParagraphBreak)
  }

  /** One typed project is a paragraph that parses back into that project. */
  lemma WrittenBlockParses(b: ProjectBlock)
    requires Writable(b)
    ensures var w := WrittenBlock(b);
            w != [] && IsTrimmed(w) && !Contains(w, ParagraphBreak) && ParseBlock(w) == b
  {
    ParseBlockOfWritten(b.heading, b.bullets);
    WrittenLinesVisible(b.heading, b.bullets);
    NoBlankLineInJoin([b.heading] + Marked(b.bullets));
  }

  /** Projects typed as paragraphs of a heading and "- " bullet lines are
      parsed back into those projects, in order. */
  lemma ProjectsOfWritten(ps: seq<ProjectBlock>)
    requires forall i :: 0 <= i < |ps| ==> Writable(ps[i])
    ensures ParseProjects(WrittenProjects(ps)) == ps
  {
    var blocks := seq(|ps|, i requires 0 <= i < |ps| => WrittenBlock(ps[i]));
    forall i | 0 <= i < |ps|
      ensures blocks[i] != [] && IsTrimmed(blocks[i]) && !Contains(blocks[i], ParagraphBreak)
      ensures ParseBlock(blocks[i]) == ps[i]
    {
      WrittenBlockParses(ps[i]);
    }
    assert SeparateParagraphs(blocks);
    ParagraphsOfJoin(blocks);
  }

  /** How a block is shown: the heading, then the bullet list only when
      there are bullets. */
  function RenderProject(b: ProjectBlock): (r: seq<Block>)
    ensures |r| >= 1 && r[0] == Heading(b.heading)
    ensures |r| == 1 <==> b.bullets == []
    ensures |r| == 2 ==> r[1] == Rows(b.bullets)
  {
    [Heading(b.heading)] + (if b.bullets != [] then [Rows(b.bullets)] else [])
  }

  // ------------------------------------------------------------- the page

  /** The preview of a saved resume. */
  function PreviewOf(title: string, d: ResumeData): (r: PreviewView)
    ensures r.fileName == FileName(title) && ' ' !in r.fileName
    ensures r.header == Header(d)
    ensures r.header.name == d.fullName && r.header.headline == d.headline && r.header.links == LinkRow(d)
    ensures r.skills == SkillsBlock(d) && r.experience == ExperienceBlock(d)
    ensures r.summary == Placeholder(SummaryPlaceholder) <==> d.aiSummary.None? || d.aiSummary.value == []
    ensures r.projects == ParseProjects(d.projects)
    ensures AllWs(d.projects) ==> r.projects == []
    ensures forall i :: 0 <= i < |r.education| ==> r.education[i] != [] && IsTrimmed(r.education[i])
    ensures AllWs(d.education) ==> r.education == []
  {
    FieldsOfBlank(d.education, "\n");
    PreviewView(
      FileName(title),
      Header(d),
      TextOr(d.aiSummary.GetOr([]), SummaryPlaceholder),
      SkillsBlock(d),
      ExperienceBlock(d),
      ParseProjects(d.projects),
      Lines(d.education))
  }

  /** Both views show a non-empty AI summary as it is; without one each shows
      its own, different, placeholder. */
  lemma SummaryAgainstPdf(title: string, d: ResumeData)
    ensures d.aiSummary.Some? && d.aiSummary.value != [] ==>
              && PreviewOf(title, d).summary == Prose(d.aiSummary.value)
              && ResumePdf.Render(title, d).sections[0].body == [Prose(d.aiSummary.value)]
    ensures d.aiSummary.None? || d.aiSummary.value == [] ==>
              && PreviewOf(title, d).summary == Placeholder(SummaryPlaceholder)
              && ResumePdf.Render(title, d).sections[0].body == [Placeholder(ResumePdf.SummaryPlaceholder)]
    ensures SummaryPlaceholder != ResumePdf.SummaryPlaceholder
  {
    ResumePdf.RenderSections(title, d);
    assert SummaryPlaceholder[0] != ResumePdf.SummaryPlaceholder[0];
  }

  /** An AI skills list with visible text is shown the same way by both
      views.  Without one the preview shows the raw field as typed while the
      PDF shows its comma tokens joined by ", "; an overlay of one empty
      skill gives the preview's placeholder but an empty line in the PDF. */
  lemma SkillsAgainstPdf(title: string, d: ResumeData)
    ensures HasItems(d.aiSkillsClean) && Join(d.aiSkillsClean.value, ", ") != [] ==>
              && PreviewOf(title, d).skills == Prose(Join(d.aiSkillsClean.value, ", "))
              && ResumePdf.Render(title, d).sections[1].body == [Prose(Join(d.aiSkillsClean.value, ", "))]
    ensures !HasItems(d.aiSkillsClean) && d.skills != [] ==> PreviewOf(title, d).skills == Prose(d.skills)
    ensures !HasItems(d.aiSkillsClean) && Tokens(d.skills, ',') != [] ==>
              ResumePdf.Render(title, d).sections[1].body == [Prose(Join(Tokens(d.skills, ','), ", "))]
    ensures d.aiSkillsClean == Some([[]]) ==>
              && PreviewOf(title, d).skills == Placeholder(SkillsPlaceholder)
              && ResumePdf.Render(title, d).sections[1].body == [Prose([])]
  {
    ResumePdf.RenderSections(title, d);
    ResumePdf.OverlaysShownInPdf(title, d);
    var s := ResumePdf.SectionOf(ResumePdf.Skills, d);
    assert s.body == [s.body[0]];
  }

  /** The preview shows every AI experience bullet, empty ones included; the
      PDF drops the empty ones and keeps the first eight.  Ten visible
      bullets give 10 rows and 8 rows. */
  lemma ExperienceCapAsymmetry(title: string, d: ResumeData)
    ensures HasItems(d.aiExperienceBullets) ==>
              && PreviewOf(title, d).experience == Rows(d.aiExperienceBullets.value)
              && ResumePdf.Render(title, d).sections[2].body
                 == [Rows(Take(Compact(d.aiExperienceBullets.value), ResumePdf.MaxBullets))]
    ensures HasItems(d.aiExperienceBullets) && |d.aiExperienceBullets.value| == 10 &&
            (forall i :: 0 <= i < 10 ==> d.aiExperienceBullets.value[i] != []) ==>
              && |PreviewOf(title, d).experience.items| == 10
              && |ResumePdf.Render(title, d).sections[2].body[0].items| == 8
  {
    ResumePdf.OverlaysShownInPdf(title, d);
    if HasItems(d.aiExperienceBullets) && |d.aiExperienceBullets.value| == 10 &&
       (forall i :: 0 <= i < 10 ==> d.aiExperienceBullets.value[i] != []) {
      CompactKeepsNonEmpty(d.aiExperienceBullets.value);
    }
  }

    /** Projects typed as headings and "- " bullet lines, with blank lines
      between them, are shown on the page in order: each heading, then its
      bullets when it has any. */
  lemma WrittenProjectsShown(title: string, d: ResumeData, ps: seq<ProjectBlock>)
    requires forall i :: 0 <= i < |ps| ==> Writable(ps[i])
    requires d.projects == WrittenProjects(ps)
    ensures |PreviewOf(title, d).projects| == |ps|
    ensures forall i :: 0 <= i < |ps| ==>
              RenderProject(PreviewOf(title, d).projects[i])[0] == Heading(ps[i].heading)
    ensures forall i :: 0 <= i < |ps| && ps[i].bullets != [] ==>
              RenderProject(PreviewOf(title, d).projects[i]) == [Heading(ps[i].heading), Rows(ps[i].bullets)]
    ensures forall i :: 0 <= i < |ps| && ps[i].bullets == [] ==>
              RenderProject(PreviewOf(title, d).projects[i]) == [Heading(ps[i].heading)]
  {
    ProjectsOfWritten(ps);
    assert PreviewOf(title, d).projects == ps;
  }

/** The preview's projects come from the raw field alone: the AI project
      bullets never reach them. */
  lemma ProjectsIgnoreOverlay(title: string, d: ResumeData, overlay: Option<seq<string>>)
    ensures PreviewOf(title, d.(aiProjectBullets := overlay)).projects == PreviewOf(title, d).projects
  {
  }

  /** The PDF shows at most six education lines; the preview shows them all. */
  lemma EducationCapAsymmetry(title: string, d: ResumeData)
    ensures PreviewOf(title, d).education == Lines(d.education)
    ensures ResumePdf.Render(title, d).sections[4].body[0]
            == Rows(Take(PreviewOf(title, d).education, ResumePdf.MaxEducationLines))
    ensures |Lines(d.education)| == 8 ==>
              |PreviewOf(title, d).education| == 8 &&
              |ResumePdf.Render(title, d).sections[4].body[0].items| == 6
  {
    ResumePdf.RenderSections(title, d);
    assert ResumePdf.SectionOf(ResumePdf.Education, d) == ResumePdf.EducationSection(d.education);
  }
}

=== FILE: resume.dfy ===
/**
  The resume record both views render, and what the two views share: the
  JavaScript `||` and `?.length` tests, the link row, and the building
  blocks of a rendered section.
*/
module Resume {
  import opened Wrappers

  /** The `data` of a saved resume: the user's raw form fields plus the
      optional overlays written by the AI generator. */
  datatype ResumeData = ResumeData(
    fullName: string,
    email: string,
    phone: string,
    headline: string,
    education: string,
    skills: string,
    experience: string,
    projects: string,
    linkedin: string,
    github: string,
    portfolio: string,
    aiSummary: Option<string>,
    aiExperienceBullets: Option<seq<string>>,
    aiProjectBullets: Option<seq<string>>,
    aiSkillsClean: Option<seq<string>>)

  /** One rendered piece of a section.  A `Placeholder` is shown as ordinary
      text; it is kept apart from `Prose` to record that the fallback branch
      produced it. */
  datatype Block =
    | Prose(text: string)
    | Placeholder(text: string)
    | Heading(text: string)
    | Rows(items: seq<string>)

  /** `xs?.length` is truthy: the overlay is present and has items. */
  predicate HasItems(overlay: Option<seq<string>>) {
    overlay.Some? && |overlay.value| > 0
  }

  /** `s || fallback` for a string. */
  function Or(s: string, fallback: string): (r: string)
    ensures s != [] ==> r == s
    ensures s == [] ==> r == fallback
  {
    if s != [] then s else fallback
  }

  /** `text || placeholder` as rendered: the text, or the placeholder
      exactly when the text is empty. */
  function TextOr(text: string, placeholder: string): (r: Block)
    ensures r == Placeholder(placeholder) <==> text == []
    ensures text != [] ==> r == Prose(text)
  {
    if text != [] then Prose(text) else Placeholder(placeholder)
  }

  /** The three profile links, in the order the header lists them; each is
      shown with its kind's name as its text. */
  datatype LinkKind = LinkedIn | GitHub | Portfolio {

    /** Position in the link row. */
    function Rank(): nat {
      match this
      case LinkedIn => 0
      case GitHub => 1
      case Portfolio => 2
    }
  }

  datatype Link = Link(kind: LinkKind, url: string)

  function UrlOf(d: ResumeData, kind: LinkKind): string {
    match kind
    case LinkedIn => d.linkedin
    case GitHub => d.github
    case Portfolio => d.portfolio
  }

  /** The link for `kind` when its URL is filled in, else nothing. */
  function LinkIf(d: ResumeData, kind: LinkKind): seq<Link> {
    if UrlOf(d, kind) != [] then [Link(kind, UrlOf(d, kind))] else []
  }

  /** The header's link row, shared by the PDF and the on-screen preview:
      LinkedIn, GitHub, Portfolio in that order, each present exactly when
      its URL is non-empty, pointing at that URL. */
  function LinkRow(d: ResumeData): (r: seq<Link>)
    ensures |r| <= 3
    ensures forall i :: 0 <= i < |r| ==> r[i].url == UrlOf(d, r[i].kind) && r[i].url != []
    ensures forall i, j :: 0 <= i < j < |r| ==> r[i].kind.Rank() < r[j].kind.Rank()
    ensures forall kind: LinkKind :: UrlOf(d, kind) != [] <==> Link(kind, UrlOf(d, kind)) in r
  {
    var a := LinkIf(d, LinkedIn);
    var b := LinkIf(d, GitHub);
    var c := LinkIf(d, Portfolio);
    var r := a + b + c;
    assert forall i :: 0 <= i < |r| ==> r[i] in a || r[i] in b || r[i] in c;
    r
  }
}

=== FILE: resume_pdf.dfy ===
/**
  The downloadable PDF: which text each part of the page shows.  The page is
  a header followed by the titled sections Summary, Skills, Experience,
  Projects and Education; layout and styling are the renderer's business.
*/
module ResumePdf {
  import opened Wrappers
  import opened JsString
  import opened Resume

  /** At most this many rows in an experience or projects bullet list. */
  const MaxBullets: nat := 8
  /** At most this many education lines in the PDF. */
  const MaxEducationLines: nat := 6

  const DefaultName := "Your Name"
  const DefaultHeadline := "Headline"
  const ContactSeparator := " | "
  const SummaryPlaceholder := "Add your summary using AI generator."
  const SkillsPlaceholder := "Add skills"
  const ExperiencePlaceholder := "Add experience or generate with AI."
  const ProjectsPlaceholder := "Add projects or generate with AI."
  const EducationPlaceholder := "Add education"

  /** The sections of the page; each is shown under its kind's name. */
  datatype SectionKind = Summary | Skills | Experience | Projects | Education

  /** The sections of the page, top to bottom. */
  const SectionOrder: seq<SectionKind> := [Summary, Skills, Experience, Projects, Education]

  datatype Header = Header(name: string, headline: string, contact: string, links: seq<Link>)
  datatype Section = Section(kind: SectionKind, body: seq<Block>)
  datatype Document = Document(title: string, header: Header, sections: seq<Section>)

  function Kinds(sections: seq<Section>): (r: seq<SectionKind>)
    ensures |r| == |sections|
    ensures forall i :: 0 <= i < |r| ==> r[i] == sections[i].kind
  {
    seq(|sections|, i requires 0 <= i < |sections| => sections[i].kind)
  }

  /** The list a section is built from: the AI overlay when it has items,
      otherwise the raw field cut at `sep`, each piece trimmed and the empty
      pieces dropped (skills on `,`, experience and projects on line breaks). */
  function Resolve(overlay: Option<seq<string>>, raw: string, sep: char): (r: seq<string>)
    ensures HasItems(overlay) ==> r == overlay.value
    ensures !HasItems(overlay) ==>
              forall i :: 0 <= i < |r| ==> r[i] != [] && IsTrimmed(r[i]) && sep !in r[i]
  {
    if HasItems(overlay) then overlay.value else Tokens(raw, sep)
  }

  /** Without an overlay, a raw field written as separated entries resolves
      to those entries, trimmed, blank ones dropped, in the order written. */
  lemma ResolveFallback(overlay: Option<seq<string>>, parts: seq<string>, sep: char)
    requires !HasItems(overlay)
    requires forall i :: 0 <= i < |parts| ==> sep !in parts[i]
    ensures Resolve(overlay, Join(parts, [sep]), sep) == Compact(TrimAll(parts))
  {
    TokensOfJoin(parts, sep);
  }

  /** The rows of a bullet list: the first eight non-empty items, in order. */
  function BulletList(items: seq<string>): (r: seq<string>)
    ensures |r| <= MaxBullets
    ensures forall i :: 0 <= i < |r| ==> r[i] != []
    ensures r <= Compact(items)
    ensures |r| < MaxBullets ==> r == Compact(items)
  {
    Take(Compact(items), MaxBullets)
  }

  /** A list of at most eight non-empty items is shown in full. */
  lemma BulletListShowsShortLists(items: seq<string>)
    requires |items| <= MaxBullets
    requires forall i :: 0 <= i < |items| ==> items[i] != []
    ensures BulletList(items) == items
  {
    CompactKeepsNonEmpty(items);
  }

  /** Email and phone, the empty ones left out, joined by " | ". */
  function ContactLine(email: string, phone: string): (r: string)
    ensures email == [] ==> r == phone
    ensures phone == [] ==> r == email
    ensures email != [] && phone != [] ==> r == email + ContactSeparator + phone
  {
    var present := Compact([email, phone]);
    assert [phone][1..] == [];
    assert Compact([phone]) == if phone == [] then [] else [phone];
    assert [email, phone][1..] == [phone];
    assert present == (if email == [] then [] else [email]) + Compact([phone]);
    assert Join([email, phone], ContactSeparator) == email + ContactSeparator + phone;
    Join(present, ContactSeparator)
  }

  /** The page header: the name and headline fall back to fixed text. */
  function PdfHeader(d: ResumeData): (r: Header)
    ensures r.name != [] && r.headline != []
    ensures d.fullName != [] ==> r.name == d.fullName
    ensures d.fullName == [] ==> r.name == DefaultName
    ensures d.headline != [] ==> r.headline == d.headline
    ensures d.headline == [] ==> r.headline == DefaultHeadline
    ensures r.contact == ContactLine(d.email, d.phone)
    ensures r.links == LinkRow(d)
  {
    Header(Or(d.fullName, DefaultName), Or(d.headline, DefaultHeadline),
           ContactLine(d.email, d.phone), LinkRow(d))
  }

  /** Experience or projects: the bullet list, or the section's placeholder
      exactly when there is nothing to list. */
  function ListSection(kind: SectionKind, items: seq<string>, placeholder: string): (r: Section)
    ensures r.kind == kind && |r.body| == 1
    ensures r.body[0] == Placeholder(placeholder) <==> |items| == 0
    ensures |items| > 0 ==> r.body[0] == Rows(BulletList(items))
  {
    Section(kind, if |items| > 0 then [Rows(BulletList(items))] else [Placeholder(placeholder)])
  }

  /** Skills: the resolved list joined by ", ", or "Add skills" exactly when
      the list is empty. */
  function SkillsSection(skills: seq<string>): (r: Section)
    ensures r.kind == Skills && |r.body| == 1
    ensures r.body[0] == Placeholder(SkillsPlaceholder) <==> |skills| == 0
    ensures |skills| > 0 ==> r.body[0] == Prose(Join(skills, ", "))
  {
    Section(Skills, if |skills| > 0 then [Prose(Join(skills, ", "))] else [Placeholder(SkillsPlaceholder)])
  }

  /** The education lines the PDF shows: the first six trimmed non-empty lines. */
  function EducationLines(education: string): (r: seq<string>)
    ensures |r| <= MaxEducationLines
    ensures r <= Lines(education)
    ensures |r| < MaxEducationLines ==> r == Lines(education)
    ensures forall i :: 0 <= i < |r| ==> r[i] != [] && IsTrimmed(r[i]) && '\n' !in r[i]
  {
    Take(Lines(education), MaxEducationLines)
  }

  /** Education: the capped lines, then "Add education" only when the field
      is the empty string, so a blank-but-not-empty field shows neither. */
  function EducationSection(education: string): (r: Section)
    ensures r.kind == Education && |r.body| >= 1
    ensures r.body[0] == Rows(EducationLines(education))
    ensures Placeholder(EducationPlaceholder) in r.body <==> education == []
    ensures AllWs(education) && education != [] ==> r.body == [Rows([])]
  {
    FieldsOfBlank(education, "\n");
    Section(Education, [Rows(EducationLines(education))]
                         + (if education == [] then [Placeholder(EducationPlaceholder)] else []))
  }

  /** The section of the given kind for a resume: the AI summary or its
      placeholder; the resolved skills joined by ", "; the first eight
      resolved experience or project items as rows; the capped education
      lines. */
  function SectionOf(kind: SectionKind, d: ResumeData): (r: Section)
    ensures r.kind == kind && |r.body| >= 1
    ensures kind != Education ==> |r.body| == 1
    ensures kind == Summary && d.aiSummary.Some? && d.aiSummary.value != [] ==>
              r.body[0] == Prose(d.aiSummary.value)
    ensures kind == Summary && (d.aiSummary.None? || d.aiSummary.value == []) ==>
              r.body[0] == Placeholder(SummaryPlaceholder)
    ensures kind == Skills ==>
              (r.body[0] == Placeholder(SkillsPlaceholder) <==> Resolve(d.aiSkillsClean, d.skills, ',') == [])
    ensures kind == Skills && Resolve(d.aiSkillsClean, d.skills, ',') != [] ==>
              r.body[0] == Prose(Join(Resolve(d.aiSkillsClean, d.skills, ','), ", "))
    ensures kind == Experience ==>
              (r.body[0] == Placeholder(ExperiencePlaceholder) <==> Resolve(d.aiExperienceBullets, d.experience, '\n') == [])
    ensures kind == Experience && Resolve(d.aiExperienceBullets, d.experience, '\n') != [] ==>
              r.body[0] == Rows(BulletList(Resolve(d.aiExperienceBullets, d.experience, '\n')))
    ensures kind == Projects ==>
              (r.body[0] == Placeholder(ProjectsPlaceholder) <==> Resolve(d.aiProjectBullets, d.projects, '\n') == [])
    ensures kind == Projects && Resolve(d.aiProjectBullets, d.projects, '\n') != [] ==>
              r.body[0] == Rows(BulletList(Resolve(d.aiProjectBullets, d.projects, '\n')))
    ensures kind == Education ==> r.body[0] == Rows(EducationLines(d.education))
    ensures kind == Education ==> (Placeholder(EducationPlaceholder) in r.body <==> d.education == [])
  {
    match kind
    case Summary => Section(Summary, [TextOr(d.aiSummary.GetOr([]), SummaryPlaceholder)])
    case Skills => SkillsSection(Resolve(d.aiSkillsClean, d.skills, ','))
    case Experience => ListSection(Experience, Resolve(d.aiExperienceBullets, d.experience, '\n'), ExperiencePlaceholder)
    case Projects => ListSection(Projects, Resolve(d.aiProjectBullets, d.projects, '\n'), ProjectsPlaceholder)
    case Education => EducationSection(d.education)
  }

  /** The sections of a resume, one of each kind in the fixed order. */
  function Sections(d: ResumeData): (r: seq<Section>)
    ensures Kinds(r) == SectionOrder
  {
    seq(|SectionOrder|, i requires 0 <= i < |SectionOrder| => SectionOf(SectionOrder[i], d))
  }

  /** The PDF of a resume: the header, then the sections in their fixed order. */
  function Render(title: string, d: ResumeData): (r: Document)
    ensures r.title == title
    ensures r.header == PdfHeader(d)
    ensures r.sections == Sections(d)
    ensures Kinds(r.sections) == SectionOrder
  {
    Document(title, PdfHeader(d), Sections(d))
  }

  /** The five sections of the PDF, one by one. */
  lemma RenderSections(title: string, d: ResumeData)
    ensures |Render(title, d).sections| == 5
    ensures Render(title, d).sections[0] == SectionOf(Summary, d)
    ensures Render(title, d).sections[1] == SectionOf(Skills, d)
    ensures Render(title, d).sections[2] == SectionOf(Experience, d)
    ensures Render(title, d).sections[3] == SectionOf(Projects, d)
    ensures Render(title, d).sections[4] == SectionOf(Education, d)
  {
    var s := Sections(d);
    assert s[0] == SectionOf(SectionOrder[0], d);
    assert s[1] == SectionOf(SectionOrder[1], d);
    assert s[2] == SectionOf(SectionOrder[2], d);
    assert s[3] == SectionOf(SectionOrder[3], d);
    assert s[4] == SectionOf(SectionOrder[4], d);
  }

  /** Each fallback text appears exactly when its section has nothing else
      to show. */
  lemma PlaceholdersExactlyWhenEmpty(title: string, d: ResumeData)
    ensures Render(title, d).sections[0].body == [Placeholder(SummaryPlaceholder)]
            <==> d.aiSummary.None? || d.aiSummary.value == []
    ensures Render(title, d).sections[1].body == [Placeholder(SkillsPlaceholder)]
            <==> Resolve(d.aiSkillsClean, d.skills, ',') == []
    ensures Render(title, d).sections[2].body == [Placeholder(ExperiencePlaceholder)]
            <==> Resolve(d.aiExperienceBullets, d.experience, '\n') == []
    ensures Render(title, d).sections[3].body == [Placeholder(ProjectsPlaceholder)]
            <==> Resolve(d.aiProjectBullets, d.projects, '\n') == []
    ensures Placeholder(EducationPlaceholder) in Render(title, d).sections[4].body
            <==> d.education == []
  {
    RenderSections(title, d);
    var summary := TextOr(d.aiSummary.GetOr([]), SummaryPlaceholder);
    assert SectionOf(Summary, d).body == [summary];
    assert [summary] == [Placeholder(SummaryPlaceholder)] <==> summary == Placeholder(SummaryPlaceholder);
    var skills := SkillsSection(Resolve(d.aiSkillsClean, d.skills, ','));
    assert SectionOf(Skills, d) == skills;
    assert skills.body == [skills.body[0]];
    var experience := ListSection(Experience, Resolve(d.aiExperienceBullets, d.experience, '\n'), ExperiencePlaceholder);
    assert SectionOf(Experience, d) == experience;
    assert experience.body == [experience.body[0]];
    var projects := ListSection(Projects, Resolve(d.aiProjectBullets, d.projects, '\n'), ProjectsPlaceholder);
    assert SectionOf(Projects, d) == projects;
    assert projects.body == [projects.body[0]];
    assert SectionOf(Education, d) == EducationSection(d.education);
  }

  /** An AI overlay with items is what the PDF shows: the skills joined by
      ", ", and the first eight non-empty experience and project bullets. */
  lemma OverlaysShownInPdf(title: string, d: ResumeData)
    ensures HasItems(d.aiSkillsClean) ==>
              Render(title, d).sections[1].body == [Prose(Join(d.aiSkillsClean.value, ", "))]
    ensures HasItems(d.aiExperienceBullets) ==>
              Render(title, d).sections[2].body == [Rows(Take(Compact(d.aiExperienceBullets.value), MaxBullets))]
    ensures HasItems(d.aiProjectBullets) ==>
              Render(title, d).sections[3].body == [Rows(Take(Compact(d.aiProjectBullets.value), MaxBullets))]
  {
    RenderSections(title, d);
    var s := SectionOf(Skills, d);
    assert s.body == [s.body[0]];
    var e := SectionOf(Experience, d);
    assert e.body == [e.body[0]];
    var p := SectionOf(Projects, d);
    assert p.body == [p.body[0]];
  }

  /** Without AI overlays every section is the normalised raw field: the
      skills tokens joined back with ", ", the first eight experience and
      project lines, and the summary placeholder. */
  lemma NoOverlayUsesRawFields(title: string, d: ResumeData)
    requires d.aiSummary.None? && d.aiSkillsClean.None?
    requires d.aiExperienceBullets.None? && d.aiProjectBullets.None?
    ensures Render(title, d).sections[0].body == [Placeholder(SummaryPlaceholder)]
    ensures Tokens(d.skills, ',') != [] ==>
              Render(title, d).sections[1].body == [Prose(Join(Tokens(d.skills, ','), ", "))]
    ensures Lines(d.experience) != [] ==>
              Render(title, d).sections[2].body == [Rows(Take(Lines(d.experience), MaxBullets))]
    ensures Lines(d.projects) != [] ==>
              Render(title, d).sections[3].body == [Rows(Take(Lines(d.projects), MaxBullets))]
  {
    RenderSections(title, d);
    assert SectionOf(Summary, d).body == [Placeholder(SummaryPlaceholder)];
    assert SectionOf(Skills, d) == SkillsSection(Tokens(d.skills, ','));
    assert SectionOf(Experience, d) == ListSection(Experience, Lines(d.experience), ExperiencePlaceholder);
    assert SectionOf(Projects, d) == ListSection(Projects, Lines(d.projects), ProjectsPlaceholder);
    assert Resolve(d.aiSkillsClean, d.skills, ',') == Tokens(d.skills, ',');
    assert Resolve(d.aiExperienceBullets, d.experience, '\n') == Lines(d.experience);
    assert Resolve(d.aiProjectBullets, d.projects, '\n') == Lines(d.projects);
    CompactKeepsNonEmpty(Lines(d.experience));
    CompactKeepsNonEmpty(Lines(d.projects));
  }
}

=== FILE: wrappers.dfy ===
/** The optional-value type used for JavaScript's `undefined`/`-1` results. */
module Wrappers {

  /** A value that may be absent: `undefined` on an optional field, `-1` from `indexOf`. */
  datatype Option<+T> = None | Some(value: T) {

    /** The value, or `default` when absent (JavaScript's `??`). */
    function GetOr(default: T): T {
      match this
      case Some(v) => v
      case None => default
    }
  }
}
